=== FILE: README.md ===
# Sora Unity SDK signaling session — a Dafny model

This project models the signaling session of the Sora Unity SDK
(`src/sora_signaling.cpp`): the client side of the Sora signaling protocol.
A session opens a websocket to the Sora server, sends a `connect` message
built from its configuration, and then runs a read loop that answers
`offer` and `update` messages with SDP produced by the media session
(libwebrtc's peer connection, here an external collaborator), forwards
`notify` messages to the host, and answers `ping` keepalives with a `pong`,
optionally carrying a stats report. ICE candidates from the media session
are relayed as `candidate` messages, and the ICE connection state decides
whether the media session handle is exposed to the host.

The model is functional. A session is an immutable record (`Session.Session`)
and `Session.Step` applies one event to it. Events are:

- the host's calls: `Connect`, `Close` and `Release`;
- the transport's completions: the handshake and each read;
- the media session's callback completions: remote description set, answer created, stats gathered;
- the media session's notifications: ICE state change and ICE candidate.

The record holds the flags and handles of the C++ object, the callbacks still
outstanding, the number of reads in flight, and logs of the messages written
and the texts handed to the notification callback. The ICE state change
is posted to an executor that is not the session's own, and candidates are
written from the media session's thread. Here each is simply an event, and
every event runs to completion before the next.

Inbound messages are parsed JSON values (`Json.Value`). The session reads
them with boost::json's checked accessors, and those accessors throw on a
missing key or a value of the wrong kind. The model keeps these throws, as
`Json.Fault` values, at the point where the code hits them. Nothing catches
such an exception. It escapes the handler and the IO thread's run loop, so
the model records it in `halted`, and no further event can occur. Every
string the session keeps from an inbound message (the `type`, the `sdp`, and
each ICE server's URL, username and credential) is copied through its C-string
pointer. It therefore ends at its first NUL character (`Json.CStr`). For
example, a `type` of `notify` followed by a NUL is handled as a `notify`.

Files:

- `wrappers.dfy`: Option and Result.
- `json.dfy`: JSON values, faults and the throwing accessors.
- `config.dfy`: the configuration, the build identity strings and the role names.
- `connect_message.dfy`: the connect message builder and a reader for it.
- `ice_servers.dfy`: flattening the offer's ICE servers, as a specification and as the source's nested loop.
- `messages.dfy`: outbound messages, their JSON form and the hand-assembled pong text.
- `session.dfy`: the session state machine.
- `session_properties.dfy`: the session invariant, read-loop behaviour and event-sequence properties.

## Model

| member | source | states |
|---|---|---|
| SignalingConfig.RoleName | src/sora_signaling.cpp:142-146 | the wire name is always one of the three names; it is `sendonly` exactly for Sendonly and `recvonly` exactly for Recvonly, so every other role gets `sendrecv` |
| SignalingConfig.SoraClient | src/sora_signaling.cpp:135-136 | `sora_client` is `Sora Unity SDK `, the SDK version, ` (`, the SDK commit and `)`, with exactly that length |
| SignalingConfig.LibWebrtc | src/sora_signaling.cpp:137-139 | `libwebrtc` is `Shiguredo-build `, the readable version, ` (`, the build version, a space, the commit and `)`, with exactly that length |
| SignalingConfig.Environment | src/sora_signaling.cpp:155-156 | `environment` starts with `Unity ` followed by the configured Unity version, and ends with ` for ` and the platform |
| Json.At | src/sora_signaling.cpp:246 | `at(key)` yields the member exactly when the value is an object holding `key`, and otherwise throws |
| Json.CStr | src/sora_signaling.cpp:246 | a string copied through its C-string pointer is never longer than the original |
| Json.CStrIsPrefixBeforeNul | src/sora_signaling.cpp:246 | a string copied through its C-string pointer is the longest prefix without a NUL: a NUL-free prefix that is either the whole string or followed by a NUL |
| Json.CStrOfNulFree | src/sora_signaling.cpp:246 | a string without a NUL is copied whole |
| Json.CStrStopsAtNul | src/sora_signaling.cpp:246 | whatever follows a NUL is lost: a NUL-free string followed by a NUL and anything else reads back as that string |
| Json.CStringAt | src/sora_signaling.cpp:249 | `at(key).as_string().c_str()` succeeds exactly when `key` holds a string, and then yields that string up to its first NUL; otherwise it throws |
| SignalingConfig.RoleNameRoundTrip | src/sora_signaling.cpp:142-146 | every role has one of exactly three wire names (`sendonly`, `recvonly`, `sendrecv`), and the name identifies the role |
| SignalingConfig.RoleOfInverse | src/sora_signaling.cpp:142-146 | a wire name that denotes a role is exactly that role's name |
| ConnectMessage.MediaBlock | src/sora_signaling.cpp:163-173 | a media block always carries `codec_type`; it carries `bit_rate` iff the bit rate is non-zero, with that value, and no other keys |
| ConnectMessage.Header | src/sora_signaling.cpp:148-157 | the fixed part of the connect message has exactly the seven keys `type`, `role`, `multistream`, `channel_id`, `sora_client`, `libwebrtc` and `environment`, with `type` `connect`, the role's wire name, the configured flag and channel, and the three identity strings |
| ConnectMessage.Build | src/sora_signaling.cpp:148 | the connect message is an object whose `type` is `connect` |
| ConnectMessage.BuildHeader | src/sora_signaling.cpp:148-173 | the connect message carries every header field with its value (including `sora_client`, `libwebrtc` and `environment`), and its keys are exactly the header's, `video`, `audio`, and `metadata` when the configured metadata is not null |
| ConnectMessage.BuildRole | src/sora_signaling.cpp:142-150 | `role` is always one of the three names: `sendonly` iff Sendonly, `recvonly` iff Recvonly, `sendrecv` iff Sendrecv |
| ConnectMessage.BuildOptionalFields | src/sora_signaling.cpp:159-173 | `metadata` present iff the configured metadata is not null (and then equal to it); both `codec_type`s always present; each `bit_rate` present iff its bit rate is non-zero |
| ConnectMessage.ReadFields | src/sora_signaling.cpp:141-175 | a connect object holding a view's values reads back as that view |
| ConnectMessage.RoundTrip | src/sora_signaling.cpp:141-175 | reading the built message recovers role, flags, channel, metadata (null if omitted) and both codecs and bit rates (zero if omitted) |
| IceServers.Strings | src/sora_signaling.cpp:197-199 | succeeds iff every URL element is a string, and then yields those strings in order, each up to its first NUL; otherwise it throws `NotAString` |
| IceServers.DecodeEntry | src/sora_signaling.cpp:194-199 | a server object decodes iff it is an object whose `username` and `credential` are strings and whose `urls` is an array of strings; the entry then holds those values, each up to its first NUL; a non-object or a missing `username` throws that fault first |
| IceServers.DecodeEntries | src/sora_signaling.cpp:193-204 | the server list decodes iff every server object decodes, and then it has one entry per object |
| IceServers.DecodeEntriesAt | src/sora_signaling.cpp:193-204 | in a decoded server list, entry `i` is the decoding of server object `i` |
| IceServers.DecodeConfig | src/sora_signaling.cpp:192-193 | a non-object `config` throws `NotAnObject`, a missing `iceServers` throws `MissingKey`, a non-array one throws `NotAnArray`, and otherwise the result is the decoding of its elements |
| IceServers.IceServersOf | src/sora_signaling.cpp:188-206 | the flattening succeeds exactly when the server list decodes, throws the same fault otherwise, and yields one entry per URL |
| IceServers.ExpandLength | src/sora_signaling.cpp:193-204 | the flattened list has one entry per URL: its length is the sum of the `urls` lengths |
| IceServers.ExpandAt | src/sora_signaling.cpp:193-204 | URL `j` of server `i` sits at position (URLs of servers before `i`) + `j`, with server `i`'s username and credential: order is preserved |
| IceServers.Origin | src/sora_signaling.cpp:193-204 | every flattened position comes from a server index and a URL index of that server |
| IceServers.EveryEntryHasAnOrigin | src/sora_signaling.cpp:193-204 | every flattened entry is some server's URL paired with that same server's credentials |
| IceServers.FlattenEncoded | src/sora_signaling.cpp:188-206 | the canonical encoding of a server list (exactly the keys `iceServers`, `urls`, `username`, `credential`) flattens to the expansion of its servers, each string cut at its first NUL |
| IceServers.FlattenEncodedNulFree | src/sora_signaling.cpp:188-206 | the canonical encoding of a server list without NUL characters flattens to exactly the expansion of its servers |
| IceServers.FlattenUrls | src/sora_signaling.cpp:197-203 | the inner loop over `urls` throws `NotAString` at a non-string element, or yields one entry per URL, in order, each with the server's credentials |
| IceServers.FlattenServer | src/sora_signaling.cpp:194-203 | the per-server loop throws the decode fault of the server object, or yields exactly that server's entries |
| IceServers.FlattenIceServers | src/sora_signaling.cpp:188-206 | the nested loop yields the same result, or the same first fault, as the specification; on success the length is the total URL count |
| Outbound.ToJson | src/sora_signaling.cpp:178-309 | every JSON-serialized message is an object with a string `type`; `answer` and `update` hold exactly `type` and `sdp`, a candidate exactly `type` and `candidate`, a bare pong only `type` |
| Outbound.JsonRoundTrip | src/sora_signaling.cpp:250-271 | `answer`, `update`, `candidate` and bare `pong` objects are recognized as the message they were built from |
| Outbound.CandidateCarriesOnlySdp | src/sora_signaling.cpp:306-311 | a candidate object has exactly the keys `type` and `candidate`; media id and line index are dropped |
| Outbound.StatsPongText | src/sora_signaling.cpp:181-186 | a pong with stats is the pong prefix, the report verbatim, and a closing brace |
| Outbound.StatsPongRoundTrip | src/sora_signaling.cpp:181-186 | the report is recovered unchanged from a pong with stats |
| Outbound.BarePongHasNoStats | src/sora_signaling.cpp:177-180 | the bare pong object has only `type`, equal to `pong`, so it carries no `stats`, and it reads back as a bare pong |
| Session.Init | src/sora_signaling.cpp:53-77 | a new session keeps its configuration and callback, is not connected, has no transport, media session, reads, callbacks or messages, and starts in ICE state New |
| Session.RtcConnection | src/sora_signaling.cpp:44-51 | the handle is returned iff the ICE state is Connected (then it is the session's handle), and null otherwise |
| Session.TransportFor | src/sora_signaling.cpp:100-111 | scheme `ws` selects a plain transport, `wss` a TLS one carrying `insecure`, and a URL that does not parse or any other scheme selects none |
| Session.Connect | src/sora_signaling.cpp:86-118 | succeeds iff not yet connected and the scheme is `ws` or `wss`; on refusal nothing changes; `ws` creates a plain transport and `wss` a TLS one carrying `insecure`; each success starts one handshake |
| Session.OnConnect | src/sora_signaling.cpp:120-133 | a failed handshake changes nothing; a successful one sets connected, issues exactly one read and sends exactly one connect message, and changes nothing else |
| Session.TypeOf | src/sora_signaling.cpp:246 | the type is read exactly when the message is an object with a string `type`, and it is that string up to its first NUL |
| Session.StatsRequested | src/sora_signaling.cpp:282-283 | stats are requested iff `stats` is literally `true`; an absent or `false` `stats` gives a bare pong; any other value throws `NotABool` |
| Session.DerefSafe | src/sora_signaling.cpp:260-285 | every read is safe while a media session exists, and so is one that is not a parsed message; an `update` with a string `sdp` is allowed only while a media session exists |
| Session.OnOffer | src/sora_signaling.cpp:247-259 | an offer sends nothing; if handled it issues exactly one read, if it throws none; it never touches transport or ICE state |
| Session.OnPing | src/sora_signaling.cpp:276-291 | a ping sends at most one message; if handled it issues exactly one read, if it throws none |
| Session.Dispatch | src/sora_signaling.cpp:245-294 | every handled message issues exactly one new read and one that throws issues none; transport, handshake and ICE state are untouched |
| Session.OnRead | src/sora_signaling.cpp:229-295 | a read completion sends and notifies at most once each and leaves transport and ICE state untouched |
| Session.Enabled | src/sora_signaling.cpp:79-329 | no event occurs after an escaped exception; `Connect` and `Release` are otherwise always possible; a read completes only while one is in flight; a remote description completes only while the media session exists |
| Session.Step | src/sora_signaling.cpp:79-329 | every event only appends to the message and notification logs, at most one entry each, and never changes the configuration |
| SessionProperties.StepPreservesValid | src/sora_signaling.cpp:86-329 | the session invariant holds after every event: reads, callbacks and media sessions exist only after a successful handshake, and the connect message is the first message sent |
| SessionProperties.RunPreservesValid | src/sora_signaling.cpp:86-329 | the invariant holds after any run of events |
| SessionProperties.ExposedHandleFollowsHandshake | src/sora_signaling.cpp:44-51 | in any reachable state, an exposed handle implies ICE Connected, a completed handshake, a created media session and a connect message sent first |
| SessionProperties.StepKeepsIceState | src/sora_signaling.cpp:312-329 | no event other than a state change alters the ICE state |
| SessionProperties.IceStateChangeOnlySetsState | src/sora_signaling.cpp:312-329 | a state-change event stores the new state and has no other effect; the handle is exposed afterwards iff the new state is Connected |
| SessionProperties.IceStateComesFromEvent | src/sora_signaling.cpp:299-329 | any ICE state a run ends in, other than its initial one, was reported by a state-change event of that run |
| SessionProperties.ReleaseHidesConnection | src/sora_signaling.cpp:79-84 | release clears the handle and nothing else, so it is never exposed afterwards |
| SessionProperties.TwoConnectsBeforeHandshakeBothProceed | src/sora_signaling.cpp:86-133 | two connect calls before the first handshake completes both succeed, and both handshakes send a connect message and start a read |
| SessionProperties.ConnectRefusedAfterHandshake | src/sora_signaling.cpp:86-133 | after a successful handshake, connect is refused and changes nothing |
| SessionProperties.FailedReadEndsLoop | src/sora_signaling.cpp:234-241 | an aborted or failed read issues no new read, sends nothing and changes nothing else |
| SessionProperties.HandledMessageRereads | src/sora_signaling.cpp:229-295 | a received message that is handled leaves exactly as many reads in flight as before; one that throws leaves one fewer |
| SessionProperties.UntypedMessageHalts | src/sora_signaling.cpp:245-246 | unparseable text, or a message without a string `type`, throws: the session halts with that fault and issues no read |
| SessionProperties.UnknownTypeIgnored | src/sora_signaling.cpp:247-294 | a message of an unknown type changes nothing (its read is replaced by a new one) |
| SessionProperties.NotifyForwardsText | src/sora_signaling.cpp:272-275 | a notify sends nothing and hands its raw text unchanged to the callback, if there is one |
| SessionProperties.NulEndsType | src/sora_signaling.cpp:246-275 | a `type` of `notify` followed by a NUL and anything else is read as `notify`, and its text is handed to the callback |
| SessionProperties.PingBeforeConnectedIgnored | src/sora_signaling.cpp:276-281 | before ICE is connected a ping produces no message and exactly one new read |
| SessionProperties.PingAnsweredWithPong | src/sora_signaling.cpp:282-291 | when connected, a ping whose `stats` is absent or `false` is answered by exactly one bare pong |
| SessionProperties.PingWithBadStatsHalts | src/sora_signaling.cpp:282-283 | when connected, a non-boolean `stats` throws |
| SessionProperties.StatsPingAnsweredAfterStats | src/sora_signaling.cpp:282-288 | when connected, a stats ping sends nothing until the stats arrive, then exactly one pong embedding the report |
| SessionProperties.PingsGetBarePongs | src/sora_signaling.cpp:276-294 | `n` such pings while connected yield exactly `n` bare pongs in order |
| SessionProperties.CanonicalOffer | src/sora_signaling.cpp:246-249 | an offer in its wire shape reads as type `offer`, its `config` flattens to its servers' URLs, and its `sdp` is read up to the first NUL |
| SessionProperties.OfferCreatesPeer | src/sora_signaling.cpp:247-250 | any offer whose `config` flattens to some servers creates a media session holding exactly those servers and requests that its SDP be applied; nothing is sent, and other keys are ignored |
| SessionProperties.OfferWithoutSdpKeepsPeer | src/sora_signaling.cpp:247-249 | an offer without a string `sdp` throws after creating its media session: the new media session stays and no read is issued |
| SessionProperties.OfferWithBadConfigHalts | src/sora_signaling.cpp:188-206 | an offer whose `config` does not flatten throws that fault before any media session is created |
| SessionProperties.NegotiationCompletes | src/sora_signaling.cpp:250-271 | a remote description just queued, completed at once by its two completions, sends exactly one reply carrying the produced SDP and leaves the other pending callbacks as they were |
| SessionProperties.NegotiationCompletesAt | src/sora_signaling.cpp:250-271 | a remote description pending at any index in any state: its two completions send exactly one reply carrying the produced SDP and remove only its callback |
| SessionProperties.PendingSurvivesStep | src/sora_signaling.cpp:250-288 | any event other than a callback's own completion keeps that callback pending and unchanged, one place lower only when an earlier callback finished |
| SessionProperties.OvertakenNegotiationCompletes | src/sora_signaling.cpp:250-271 | a negotiation overtaken between its completions by any other event (a ping, a notification, another callback's completion) still sends exactly one reply with the produced SDP, after what that event sent |
| SessionProperties.OfferIsAnswered | src/sora_signaling.cpp:247-259 | offer, then both completions: exactly one `answer` carrying the produced SDP |
| SessionProperties.UpdateStartsRenegotiation | src/sora_signaling.cpp:260-262 | an update requests that its SDP be applied on the existing media session; nothing is sent |
| SessionProperties.UpdateIsAnswered | src/sora_signaling.cpp:260-271 | update, then both completions: exactly one `update` carrying the produced SDP, nothing else changed |
| SessionProperties.CandidateSendsOnlySdp | src/sora_signaling.cpp:306-311 | a candidate event sends one candidate message whatever its media id and line index |

## Left out

- The websocket transport, TLS and certificate checks (`src/ssl_verifier.h`) are I/O. The transport is reduced to its kind (none, plain, TLS with the `insecure` flag), a count of handshakes in flight, a count of reads in flight, and a close-requested flag.
- URL parsing (`URLParts::Parse`) is not part of this model. The configuration carries the parsed scheme, or `None` when the URL does not parse.
- The port computed at the top of `Connect` (lines 93-98) is never used, so it is not modelled.
- JSON text parsing and serialization are left out. Inbound messages arrive already parsed, or as "not JSON". Outbound messages are typed values with their JSON object form. Only the pong with stats is modelled down to its text, because the code assembles it by hand around the report.
- The media session (`RTCManager::createConnection`, `SetOffer`, `CreateAnswer`, `GetStats`) is external. Its produced SDP and stats report are event parameters. A media session is represented by the server list it was created with.
- `createConnection` is assumed to succeed on every offer. The code dereferences its result at line 250 without a check, so a failed creation would be a null dereference that the model does not represent.
- Logging, `iceConnectionStateToString` and the getter `getRTCConnectionState` only report state. They are not modelled.
- The `shared_from_this`/`std::bind` lifetime machinery is left out.
- `OnIceConnectionStateChange` (line 302) posts the state change without naming an executor. The bound handler's associated executor is then asio's system executor, a thread pool, not the session's `io_context`. So `DoIceConnectionStateChange` writes `rtc_state_` (line 328) on a pool thread. That write is not ordered against other state changes and races with the reads at lines 45 and 277. The model assumes the hand-off that the `post` at line 302 is evidently meant to perform: state changes arrive in order, one event at a time. It does not model those races.
- `OnIceCandidate` (lines 306-311) posts nothing. It writes to the websocket directly from the media session's thread, concurrently with the session's own handlers. The model treats a candidate as one event that runs to completion, so it does not model races between that write and the read loop.
- `OnClose` only logs. `Close` is modelled as a recorded close request. How the transport then cancels pending reads is transport behaviour; the model expresses it as aborted reads.
- `Create` and `Init` always succeed; `Session.Init` is the state they produce. The initial ICE state is taken to be New, because the header that initialises it is not part of this model.
- The bit rates are C++ `int`s and the model uses unbounded integers. No arithmetic is done on them, so the width does not matter.
- A second `Connect` before the first handshake completes replaces the websocket. What happens to the first websocket's pending handshake is transport behaviour. The model lets both handshakes complete.
- Null-pointer dereferences are not modelled as outcomes. They are preconditions of the events that would cause them (`Session.Enabled`, `Session.DerefSafe`):
  - an `update` with an `sdp` while no media session exists;
  - a set-offer completion after `Release`;
  - a stats ping with no media session;
  - `Close` with no transport.
- ICE state and candidate events can occur only once a media session has been created, because that media session emits them.
- `src/sora.cpp` and the video encoder factories under `src/rtc/` are device, threading and codec plumbing. They are not part of this model. `src/sora.cpp` also builds its configuration with roles named Upstream/Downstream, which the signaling file does not name: it names only Sendonly and Recvonly, and every other role falls through to `sendrecv`.
- Easy-to-miss behaviours of the code, modelled as written:
  - `Connect` reports an unsupported scheme only by returning false.
  - A message without a `type`, a non-boolean `stats`, a missing `config`/`sdp`, or a malformed ICE server list throws out of the read handler, and no further read is issued.
  - The ICE state is stored as reported, so it can leave Closed.

=== FILE: config.dfy ===
/**
  The configuration a signaling session is created with, and the build
  identity strings compiled into the library.
 */
module SignalingConfig {
  import opened Wrappers
  import Json

  datatype Role = Sendonly | Recvonly | Sendrecv

  /**
    `signalingUrl` is the configured URL; `scheme` is what parsing it yields
    (`None` when it does not parse). URL parsing itself is not part of this
    model, so the configuration carries its outcome.
   */
  datatype Config = Config(
    signalingUrl: string,
    scheme: Option<string>,
    insecure: bool,
    role: Role,
    multistream: bool,
    channelId: string,
    unityVersion: string,
    metadata: Json.Value,
    videoCodec: string,
    videoBitrate: int,
    audioCodec: string,
    audioBitrate: int)

  /** The version macros the library is compiled with. */
  datatype BuildInfo = BuildInfo(
    sdkVersion: string,
    sdkCommitShort: string,
    webrtcReadableVersion: string,
    webrtcBuildVersion: string,
    webrtcCommitShort: string,
    platform: string)

  /** The `sora_client` identity string: the SDK name and version, then the commit in parentheses. */
  function SoraClient(b: BuildInfo): (r: string)
    ensures |r| == 15 + |b.sdkVersion| + 2 + |b.sdkCommitShort| + 1
    ensures r[..15] == "Sora Unity SDK " && r[15..15 + |b.sdkVersion|] == b.sdkVersion
    ensures r[15 + |b.sdkVersion|..17 + |b.sdkVersion|] == " ("
    ensures r[|r| - |b.sdkCommitShort| - 1..] == b.sdkCommitShort + ")"
  {
    "Sora Unity SDK " + b.sdkVersion + " (" + b.sdkCommitShort + ")"
  }

  /**
    The `libwebrtc` identity string: the build name and readable version,
    then the build version and commit in parentheses.
   */
  function LibWebrtc(b: BuildInfo): (r: string)
    ensures |r| == 16 + |b.webrtcReadableVersion| + 2 + |b.webrtcBuildVersion| + 1 + |b.webrtcCommitShort| + 1
    ensures r[..16] == "Shiguredo-build " && r[16..16 + |b.webrtcReadableVersion|] == b.webrtcReadableVersion
    ensures var m := 16 + |b.webrtcReadableVersion|;
      && r[m..m + 2] == " ("
      && r[m + 2..m + 2 + |b.webrtcBuildVersion|] == b.webrtcBuildVersion
      && r[m + 2 + |b.webrtcBuildVersion|] == ' '
    ensures r[|r| - |b.webrtcCommitShort| - 1..] == b.webrtcCommitShort + ")"
  {
    "Shiguredo-build " + b.webrtcReadableVersion + " (" + b.webrtcBuildVersion + " " + b.webrtcCommitShort + ")"
  }

  /** The `environment` string: the Unity version and the target platform. */
  function Environment(c: Config, b: BuildInfo): (r: string)
    ensures |r| == 6 + |c.unityVersion| + 5 + |b.platform|
    ensures r[..6] == "Unity " && r[6..6 + |c.unityVersion|] == c.unityVersion
    ensures r[|r| - |b.platform| - 5..] == " for " + b.platform
  {
    "Unity " + c.unityVersion + " for " + b.platform
  }

  /** The wire name of a role: sendonly and recvonly by name, anything else sendrecv. */
  function RoleName(role: Role): (r: string)
    ensures r in {"sendonly", "recvonly", "sendrecv"}
    ensures r == "sendonly" <==> role == Sendonly
    ensures r == "recvonly" <==> role == Recvonly
  {
    if role == Sendonly then "sendonly"
    else if role == Recvonly then "recvonly"
    else "sendrecv"
  }

  /** The role a wire name stands for, if any. */
  function RoleOf(name: string): Option<Role> {
    if name == "sendonly" then Some(Sendonly)
    else if name == "recvonly" then Some(Recvonly)
    else if name == "sendrecv" then Some(Sendrecv)
    else None
  }

  /** Every role has one of exactly three wire names, and the name identifies the role. */
  lemma RoleNameRoundTrip(role: Role)
    ensures RoleName(role) in {"sendonly", "recvonly", "sendrecv"}
    ensures RoleOf(RoleName(role)) == Some(role)
  {
  }

  /** A name that denotes a role is that role's wire name. */
  lemma RoleOfInverse(name: string, role: Role)
    requires RoleOf(name) == Some(role)
    ensures RoleName(role) == name
  {
  }
}

=== FILE: connect_message.dfy ===
/**
  The `connect` message a session sends once its signaling channel is open,
  built from the session configuration, and a reader that recovers the
  configured values from such a message.
 */
module ConnectMessage {
  import opened Wrappers
  import opened Json
  import opened SignalingConfig

  /** The `video` / `audio` block: the codec, and the bit rate unless it is zero. */
  function MediaBlock(codec: string, bitrate: int): (r: Value)
    ensures r.Object? && "codec_type" in r.fields && r.fields["codec_type"] == Str(codec)
    ensures "bit_rate" in r.fields <==> bitrate != 0
    ensures "bit_rate" in r.fields ==> r.fields["bit_rate"] == Number(bitrate)
    ensures r.fields.Keys <= {"codec_type", "bit_rate"}
  {
    if bitrate != 0 then Object(map["codec_type" := Str(codec), "bit_rate" := Number(bitrate)])
    else Object(map["codec_type" := Str(codec)])
  }

  /** The fields every connect message carries, before the optional and per-media ones. */
  function Header(c: Config, b: BuildInfo): (h: map<string, Value>)
    ensures h.Keys == {"type", "role", "multistream", "channel_id", "sora_client", "libwebrtc", "environment"}
    ensures h["type"] == Str("connect") && h["role"] == Str(RoleName(c.role))
    ensures h["multistream"] == Bool(c.multistream) && h["channel_id"] == Str(c.channelId)
    ensures h["sora_client"] == Str(SoraClient(b)) && h["libwebrtc"] == Str(LibWebrtc(b))
    ensures h["environment"] == Str(Environment(c, b))
  {
    map[
      "type" := Str("connect"),
      "role" := Str(RoleName(c.role)),
      "multistream" := Bool(c.multistream),
      "channel_id" := Str(c.channelId),
      "sora_client" := Str(SoraClient(b)),
      "libwebrtc" := Str(LibWebrtc(b)),
      "environment" := Str(Environment(c, b))]
  }

  /** The connect message for configuration `c` on build `b`. */
  function Build(c: Config, b: BuildInfo): (r: Value)
    ensures r.Object? && "type" in r.fields && r.fields["type"] == Str("connect")
  {
    var h := Header(c, b);
    var withMetadata := if c.metadata.Null? then h else h["metadata" := c.metadata];
    Object(withMetadata["video" := MediaBlock(c.videoCodec, c.videoBitrate)]
                       ["audio" := MediaBlock(c.audioCodec, c.audioBitrate)])
  }

  /**
    A connect message carries every header field with its value (among them
    the three identity strings), and its keys are exactly the header's, the
    two media blocks, and `metadata` when the metadata is not null.
   */
  lemma BuildHeader(c: Config, b: BuildInfo)
    ensures var h := Header(c, b); var f := Build(c, b).fields;
      forall k :: k in h ==> k in f && f[k] == h[k]
    ensures Build(c, b).fields.Keys ==
      Header(c, b).Keys + {"video", "audio"} + (if c.metadata.Null? then {} else {"metadata"})
  {
    var h := Header(c, b);
    assert "video" !in h && "audio" !in h && "metadata" !in h;
    var m := if c.metadata.Null? then h else h["metadata" := c.metadata];
    assert Build(c, b).fields == m["video" := MediaBlock(c.videoCodec, c.videoBitrate)]
                                   ["audio" := MediaBlock(c.audioCodec, c.audioBitrate)];
  }

  /** The `video` and `audio` members are the media blocks of the configured codecs and bit rates. */
  lemma BuildMedia(c: Config, b: BuildInfo)
    ensures var f := Build(c, b).fields;
      && "video" in f && f["video"] == MediaBlock(c.videoCodec, c.videoBitrate)
      && "audio" in f && f["audio"] == MediaBlock(c.audioCodec, c.audioBitrate)
  {
  }

  /**
    The `role` of a connect message is always one of the three wire names:
    `sendonly` exactly for Sendonly, `recvonly` exactly for Recvonly, and
    `sendrecv` otherwise.
   */
  lemma BuildRole(c: Config, b: BuildInfo)
    ensures var f := Build(c, b).fields;
      && "role" in f && f["role"] in {Str("sendonly"), Str("recvonly"), Str("sendrecv")}
      && (f["role"] == Str("sendonly") <==> c.role == Sendonly)
      && (f["role"] == Str("recvonly") <==> c.role == Recvonly)
      && (f["role"] == Str("sendrecv") <==> c.role == Sendrecv)
  {
    var f := Build(c, b).fields;
    assert "role" in f && f["role"] == Str(RoleName(c.role));
  }

  /**
    Both media blocks always name their codec; each carries `bit_rate` exactly
    when the configured bit rate is non-zero, and `metadata` is present
    exactly when the configured metadata is not null.
   */
  lemma BuildOptionalFields(c: Config, b: BuildInfo)
    ensures var f := Build(c, b).fields;
      && "metadata" in f <==> !c.metadata.Null?
    ensures var f := Build(c, b).fields;
      && ("metadata" in f ==> f["metadata"] == c.metadata)
      && "video" in f && f["video"].Object? && "audio" in f && f["audio"].Object?
      && "codec_type" in f["video"].fields && f["video"].fields["codec_type"] == Str(c.videoCodec)
      && "codec_type" in f["audio"].fields && f["audio"].fields["codec_type"] == Str(c.audioCodec)
      && ("bit_rate" in f["video"].fields <==> c.videoBitrate != 0)
      && ("bit_rate" in f["audio"].fields <==> c.audioBitrate != 0)
      && ("bit_rate" in f["video"].fields ==> f["video"].fields["bit_rate"] == Number(c.videoBitrate))
      && ("bit_rate" in f["audio"].fields ==> f["audio"].fields["bit_rate"] == Number(c.audioBitrate))
  {
  }

  /** What a connect message conveys about the configuration. */
  datatype ConnectView = ConnectView(
    role: Role,
    multistream: bool,
    channelId: string,
    metadata: Value,
    videoCodec: string,
    videoBitrate: int,
    audioCodec: string,
    audioBitrate: int)

  /** The view a configuration should produce: an absent field reads as null or zero. */
  function ViewOf(c: Config): ConnectView {
    ConnectView(c.role, c.multistream, c.channelId, c.metadata,
                c.videoCodec, c.videoBitrate, c.audioCodec, c.audioBitrate)
  }

  /** The codec and bit rate of a media block; an absent `bit_rate` reads as zero. */
  function ReadMedia(v: Value): Option<(string, int)> {
    if !v.Object? || "codec_type" !in v.fields || !v.fields["codec_type"].Str? then None
    else if "bit_rate" !in v.fields then Some((v.fields["codec_type"].s, 0))
    else if !v.fields["bit_rate"].Number? then None
    else Some((v.fields["codec_type"].s, v.fields["bit_rate"].n))
  }

  /** Reads a connect message back; `None` when `v` is not a well-formed one. */
  function Read(v: Value): Option<ConnectView> {
    if !v.Object? then None
    else
      var f := v.fields;
      if "type" !in f || f["type"] != Str("connect") then None
      else if "role" !in f || !f["role"].Str? || RoleOf(f["role"].s).None? then None
      else if "multistream" !in f || !f["multistream"].Bool? then None
      else if "channel_id" !in f || !f["channel_id"].Str? then None
      else if "video" !in f || ReadMedia(f["video"]).None? then None
      else if "audio" !in f || ReadMedia(f["audio"]).None? then None
      else
        var video := ReadMedia(f["video"]).value;
        var audio := ReadMedia(f["audio"]).value;
        var metadata := if "metadata" in f then f["metadata"] else Null;
        Some(ConnectView(RoleOf(f["role"].s).value, f["multistream"].b, f["channel_id"].s,
                         metadata, video.0, video.1, audio.0, audio.1))
  }

  /** A media block reads back as the codec and bit rate it was built from. */
  lemma MediaRoundTrip(codec: string, bitrate: int)
    ensures ReadMedia(MediaBlock(codec, bitrate)) == Some((codec, bitrate))
  {
  }

  /** A connect object whose fields hold the values of `view` reads back as `view`. */
  lemma ReadFields(f: map<string, Value>, view: ConnectView)
    requires "type" in f && f["type"] == Str("connect")
    requires "role" in f && f["role"] == Str(RoleName(view.role))
    requires "multistream" in f && f["multistream"] == Bool(view.multistream)
    requires "channel_id" in f && f["channel_id"] == Str(view.channelId)
    requires "metadata" in f <==> !view.metadata.Null?
    requires "metadata" in f ==> f["metadata"] == view.metadata
    requires "video" in f && f["video"] == MediaBlock(view.videoCodec, view.videoBitrate)
    requires "audio" in f && f["audio"] == MediaBlock(view.audioCodec, view.audioBitrate)
    ensures Read(Object(f)) == Some(view)
  {
    RoleNameRoundTrip(view.role);
    MediaRoundTrip(view.videoCodec, view.videoBitrate);
    MediaRoundTrip(view.audioCodec, view.audioBitrate);
  }

  /**
    Reading a built connect message recovers every configured value: the role,
    the flags, the metadata (null when it was left out) and both bit rates
    (zero when they were left out).
   */
  lemma RoundTrip(c: Config, b: BuildInfo)
    ensures Read(Build(c, b)) == Some(ViewOf(c))
  {
    var f := Build(c, b).fields;
    var h := Header(c, b);
    BuildHeader(c, b);
    BuildOptionalFields(c, b);
    BuildMedia(c, b);
    assert "role" in h && "multistream" in h && "channel_id" in h;
    ReadFields(f, ViewOf(c));
  }

}

=== FILE: ice_servers.dfy ===
/**
  The ICE server list carried by an `offer`: its `config.iceServers` array
  holds servers, each with several `urls` and one `username` / `credential`;
  the media session wants one entry per URL.
 */
module IceServers {
  import opened Wrappers
  import opened Json

  /** One entry of the media session's server list. */
  datatype IceServer = IceServer(uri: string, username: string, password: string)

  /** One element of the `iceServers` array, once its fields are known to be well-typed. */
  datatype ServerEntry = ServerEntry(urls: seq<string>, username: string, credential: string)

  /**
    `as_string().c_str()` on each element in order: each string up to its
    first NUL; the first non-string element throws.
   */
  function Strings(items: seq<Value>): (r: Result<seq<string>, Fault>)
    ensures r.Ok? <==> forall i :: 0 <= i < |items| ==> items[i].Str?
    ensures r.Ok? ==> |r.value| == |items| && forall i :: 0 <= i < |items| ==> r.value[i] == CStr(items[i].s)
    ensures r.Err? ==> r.error == NotAString
    decreases |items|
  {
    if |items| == 0 then Ok([])
    else
      var init := items[..|items| - 1];
      match Strings(init)
      case Err(f) => Err(f)
      case Ok(prefix) =>
        match AsString(items[|items| - 1])
        case Err(f) => Err(f)
        case Ok(s) => Ok(prefix + [CStr(s)])
  }

  /** A server object: a string `username` and `credential`, and an array of strings `urls`. */
  predicate ServerShape(j: Value) {
    && j.Object?
    && "username" in j.fields && j.fields["username"].Str?
    && "credential" in j.fields && j.fields["credential"].Str?
    && "urls" in j.fields && j.fields["urls"].Array?
    && forall i :: 0 <= i < |j.fields["urls"].items| ==> j.fields["urls"].items[i].Str?
  }

  /** `e` holds the strings of the server object `j`, each up to its first NUL. */
  predicate HoldsServer(e: ServerEntry, j: Value)
    requires ServerShape(j)
  {
    && e.username == CStr(j.fields["username"].s)
    && e.credential == CStr(j.fields["credential"].s)
    && |e.urls| == |j.fields["urls"].items|
    && forall i :: 0 <= i < |e.urls| ==> e.urls[i] == CStr(j.fields["urls"].items[i].s)
  }

  /**
    One server object: `username`, then `credential`, then every element of
    `urls`, each kept up to its first NUL. It decodes exactly when it has that
    shape, and a missing or mistyped member throws, checked in that order.
   */
  function DecodeEntry(j: Value): (r: Result<ServerEntry, Fault>)
    ensures r.Ok? <==> ServerShape(j)
    ensures r.Ok? ==> HoldsServer(r.value, j)
    ensures !j.Object? ==> r == Err(NotAnObject)
    ensures j.Object? && "username" !in j.fields ==> r == Err(MissingKey("username"))
  {
    match CStringAt(j, "username")
    case Err(f) => Err(f)
    case Ok(username) =>
      match CStringAt(j, "credential")
      case Err(f) => Err(f)
      case Ok(credential) =>
        match At(j, "urls")
        case Err(f) => Err(f)
        case Ok(jurls) =>
          match AsArray(jurls)
          case Err(f) => Err(f)
          case Ok(items) =>
            match Strings(items)
            case Err(f) => Err(f)
            case Ok(urls) => Ok(ServerEntry(urls, username, credential))
  }

  /**
    Every server object in order: it succeeds exactly when each object
    decodes (`DecodeEntriesAt` says what it then yields); otherwise the first
    malformed object throws.
   */
  function DecodeEntries(items: seq<Value>): (r: Result<seq<ServerEntry>, Fault>)
    ensures r.Ok? <==> forall i :: 0 <= i < |items| ==> DecodeEntry(items[i]).Ok?
    ensures r.Ok? ==> |r.value| == |items|
    decreases |items|
  {
    if |items| == 0 then Ok([])
    else
      var init := items[..|items| - 1];
      assert forall i :: 0 <= i < |init| ==> init[i] == items[i];
      var prefix := DecodeEntries(init);
      if prefix.Err? then Err(prefix.error)
      else
        var last := DecodeEntry(items[|items| - 1]);
        if last.Err? then Err(last.error)
        else Ok(prefix.value + [last.value])
  }

  /** A decoded server list holds, at each position, the decoding of the server object there. */
  lemma {:induction false} DecodeEntriesAt(items: seq<Value>)
    requires DecodeEntries(items).Ok?
    ensures forall i :: 0 <= i < |items| ==> DecodeEntries(items).value[i] == DecodeEntry(items[i]).value
    decreases |items|
  {
    if |items| > 0 {
      var init := items[..|items| - 1];
      var last := items[|items| - 1];
      var r := DecodeEntries(items).value;
      var p := DecodeEntries(init).value;
      assert r == p + [DecodeEntry(last).value];
      DecodeEntriesAt(init);
      forall i | 0 <= i < |items|
        ensures r[i] == DecodeEntry(items[i]).value
      {
        if i < |init| {
          assert r[i] == p[i] && init[i] == items[i];
        }
      }
    }
  }

  /** The server objects of an offer's `config` value. */
  function DecodeConfig(jconfig: Value): (r: Result<seq<ServerEntry>, Fault>)
    ensures !jconfig.Object? ==> r == Err(NotAnObject)
    ensures jconfig.Object? && "iceServers" !in jconfig.fields ==> r == Err(MissingKey("iceServers"))
    ensures jconfig.Object? && "iceServers" in jconfig.fields && !jconfig.fields["iceServers"].Array? ==>
      r == Err(NotAnArray)
    ensures jconfig.Object? && "iceServers" in jconfig.fields && jconfig.fields["iceServers"].Array? ==>
      r == DecodeEntries(jconfig.fields["iceServers"].items)
  {
    match At(jconfig, "iceServers")
    case Err(f) => Err(f)
    case Ok(jservers) =>
      match AsArray(jservers)
      case Err(f) => Err(f)
      case Ok(items) => DecodeEntries(items)
  }

  /** The entries one server contributes: one per URL, each with the server's credentials. */
  function Expansion(e: ServerEntry): seq<IceServer> {
    seq(|e.urls|, i requires 0 <= i < |e.urls| => IceServer(e.urls[i], e.username, e.credential))
  }

  /** The flattened list: each server's entries, servers in order. */
  function Expand(es: seq<ServerEntry>): seq<IceServer>
    decreases |es|
  {
    if |es| == 0 then [] else Expand(es[..|es| - 1]) + Expansion(es[|es| - 1])
  }

  /** The total number of URLs over all servers. */
  function TotalUrls(es: seq<ServerEntry>): nat
    decreases |es|
  {
    if |es| == 0 then 0 else TotalUrls(es[..|es| - 1]) + |es[|es| - 1].urls|
  }

  /** What the session hands to the media session for an offer's `config` value. */
  function IceServersOf(jconfig: Value): (r: Result<seq<IceServer>, Fault>)
    ensures r.Ok? <==> DecodeConfig(jconfig).Ok?
    ensures r.Err? ==> r.error == DecodeConfig(jconfig).error
    ensures r.Ok? ==> |r.value| == TotalUrls(DecodeConfig(jconfig).value)
  {
    match DecodeConfig(jconfig)
    case Err(f) => Err(f)
    case Ok(es) =>
      ExpandLength(es);
      Ok(Expand(es))
  }

  /** There is one flattened entry per URL. */
  lemma {:induction false} ExpandLength(es: seq<ServerEntry>)
    ensures |Expand(es)| == TotalUrls(es)
    decreases |es|
  {
    if |es| > 0 {
      ExpandLength(es[..|es| - 1]);
    }
  }

  /**
    URL `j` of server `i` lands at position `TotalUrls(es[..i]) + j`: entries
    keep the input order, and each carries the credentials of its own server.
   */
  lemma {:induction false} ExpandAt(es: seq<ServerEntry>, i: nat, j: nat)
    requires i < |es| && j < |es[i].urls|
    ensures TotalUrls(es[..i]) + j < TotalUrls(es)
    ensures TotalUrls(es[..i]) + j < |Expand(es)|
    ensures Expand(es)[TotalUrls(es[..i]) + j] == IceServer(es[i].urls[j], es[i].username, es[i].credential)
    decreases |es|
  {
    var n := |es|;
    var init := es[..n - 1];
    ExpandLength(es);
    ExpandLength(init);
    if i == n - 1 {
      assert es[..i] == init;
    } else {
      assert init[..i] == es[..i];
      ExpandAt(init, i, j);
    }
  }

  /** The server `i` and URL `j` that flattened entry `k` comes from. */
  function Origin(es: seq<ServerEntry>, k: nat): (o: (nat, nat))
    requires k < TotalUrls(es)
    ensures o.0 < |es| && o.1 < |es[o.0].urls|
    ensures TotalUrls(es[..o.0]) + o.1 == k
    decreases |es|
  {
    var init := es[..|es| - 1];
    if k >= TotalUrls(init) then
      assert es[..|es| - 1] == init;
      (|es| - 1, k - TotalUrls(init))
    else
      var o := Origin(init, k);
      assert init[..o.0] == es[..o.0];
      o
  }

  /** Every flattened entry is a URL of some server, paired with that server's credentials. */
  lemma EveryEntryHasAnOrigin(es: seq<ServerEntry>, k: nat)
    requires k < |Expand(es)|
    ensures k < TotalUrls(es)
    ensures var o := Origin(es, k);
      Expand(es)[k] == IceServer(es[o.0].urls[o.1], es[o.0].username, es[o.0].credential)
  {
    ExpandLength(es);
    var o := Origin(es, k);
    ExpandAt(es, o.0, o.1);
  }

  /** A JSON array's elements holding the strings `urls`. */
  function StrItems(urls: seq<string>): (r: seq<Value>)
    ensures |r| == |urls| && forall i :: 0 <= i < |urls| ==> r[i] == Str(urls[i])
  {
    seq(|urls|, i requires 0 <= i < |urls| => Str(urls[i]))
  }

  /** The JSON form of one server. */
  function EncodeEntry(e: ServerEntry): Value {
    Object(map[
      "urls" := Array(StrItems(e.urls)),
      "username" := Str(e.username),
      "credential" := Str(e.credential)])
  }

  /** The JSON array elements holding the servers `es`. */
  function EntryItems(es: seq<ServerEntry>): (r: seq<Value>)
    ensures |r| == |es| && forall i :: 0 <= i < |es| ==> r[i] == EncodeEntry(es[i])
  {
    seq(|es|, i requires 0 <= i < |es| => EncodeEntry(es[i]))
  }

  /** The JSON form of an offer's `config` holding the servers `es`. */
  function EncodeConfig(es: seq<ServerEntry>): Value {
    Object(map["iceServers" := Array(EntryItems(es))])
  }

  /** Each of `urls` up to its first NUL. */
  function CStrs(urls: seq<string>): (r: seq<string>)
    ensures |r| == |urls| && forall i :: 0 <= i < |urls| ==> r[i] == CStr(urls[i])
  {
    seq(|urls|, i requires 0 <= i < |urls| => CStr(urls[i]))
  }

  /** The server the session reads back from the JSON form of `e`: every string ends at its first NUL. */
  function AsRead(e: ServerEntry): ServerEntry {
    ServerEntry(CStrs(e.urls), CStr(e.username), CStr(e.credential))
  }

  /** The servers `es` as the session reads them back. */
  function AllAsRead(es: seq<ServerEntry>): (r: seq<ServerEntry>)
    ensures |r| == |es| && forall i :: 0 <= i < |es| ==> r[i] == AsRead(es[i])
  {
    seq(|es|, i requires 0 <= i < |es| => AsRead(es[i]))
  }

  /** No string of the server holds a NUL character. */
  predicate NulFree(e: ServerEntry) {
    && '\0' !in e.username && '\0' !in e.credential
    && forall i :: 0 <= i < |e.urls| ==> '\0' !in e.urls[i]
  }

  lemma DecodeEntryOfEncoded(e: ServerEntry)
    ensures DecodeEntry(EncodeEntry(e)) == Ok(AsRead(e))
  {
    var v := EncodeEntry(e);
    var items := StrItems(e.urls);
    assert v.fields["urls"] == Array(items);
    var d := DecodeEntry(v);
    assert d.Ok?;
    assert d.value.urls == CStrs(e.urls);
  }

  /** A server without NUL characters is read back unchanged. */
  lemma AsReadOfNulFree(e: ServerEntry)
    requires NulFree(e)
    ensures AsRead(e) == e
  {
    CStrOfNulFree(e.username);
    CStrOfNulFree(e.credential);
    forall i | 0 <= i < |e.urls|
      ensures CStr(e.urls[i]) == e.urls[i]
    {
      CStrOfNulFree(e.urls[i]);
    }
    assert CStrs(e.urls) == e.urls;
  }

  /**
    The JSON form of a server list flattens to the expansion of the servers
    as read back, each string ending at its first NUL.
   */
  lemma FlattenEncoded(es: seq<ServerEntry>)
    ensures IceServersOf(EncodeConfig(es)) == Ok(Expand(AllAsRead(es)))
  {
    var items := EntryItems(es);
    forall i | 0 <= i < |items|
      ensures DecodeEntry(items[i]) == Ok(AsRead(es[i]))
    {
      DecodeEntryOfEncoded(es[i]);
    }
    DecodeEntriesAt(items);
    assert DecodeEntries(items).value == AllAsRead(es);
  }

  lemma AllAsReadOfNulFree(es: seq<ServerEntry>)
    requires forall i :: 0 <= i < |es| ==> NulFree(es[i])
    ensures AllAsRead(es) == es
  {
    forall i | 0 <= i < |es|
      ensures AllAsRead(es)[i] == es[i]
    {
      AsReadOfNulFree(es[i]);
    }
  }

  /** A server list without NUL characters flattens to exactly the expansion of its servers. */
  lemma FlattenEncodedNulFree(es: seq<ServerEntry>)
    requires forall i :: 0 <= i < |es| ==> NulFree(es[i])
    ensures IceServersOf(EncodeConfig(es)) == Ok(Expand(es))
  {
    FlattenEncoded(es);
    AllAsReadOfNulFree(es);
  }

  lemma {:induction false} StringsPrefix(items: seq<Value>, k: nat)
    requires k <= |items| && Strings(items[..k]).Err?
    ensures Strings(items) == Strings(items[..k])
    decreases |items|
  {
    if k < |items| {
      var init := items[..|items| - 1];
      assert init[..k] == items[..k];
      StringsPrefix(init, k);
    } else {
      assert items[..k] == items;
    }
  }

  lemma {:induction false} DecodeEntriesPrefix(items: seq<Value>, k: nat)
    requires k <= |items| && DecodeEntries(items[..k]).Err?
    ensures DecodeEntries(items) == DecodeEntries(items[..k])
    decreases |items|
  {
    if k < |items| {
      var init := items[..|items| - 1];
      assert init[..k] == items[..k];
      DecodeEntriesPrefix(init, k);
    } else {
      assert items[..k] == items;
    }
  }

  /** Decoding one more server object extends the decoded prefix, or throws that object's fault. */
  lemma DecodeEntriesStep(items: seq<Value>, i: nat, done: seq<ServerEntry>)
    requires i < |items| && DecodeEntries(items[..i]) == Ok(done)
    ensures DecodeEntry(items[i]).Ok? ==> DecodeEntries(items[..i + 1]) == Ok(done + [DecodeEntry(items[i]).value])
    ensures DecodeEntry(items[i]).Err? ==> DecodeEntries(items[..i + 1]) == Err(DecodeEntry(items[i]).error)
  {
    assert items[..i + 1][..i] == items[..i];
  }

  /** Once its credentials and its `urls` array are read, a server object decodes as its URLs do. */
  lemma DecodeEntryOfParts(j: Value, username: string, credential: string, us: seq<Value>)
    requires CStringAt(j, "username") == Ok(username) && CStringAt(j, "credential") == Ok(credential)
    requires At(j, "urls") == Ok(Array(us))
    ensures Strings(us).Err? ==> DecodeEntry(j) == Err(Strings(us).error)
    ensures Strings(us).Ok? ==> DecodeEntry(j) == Ok(ServerEntry(Strings(us).value, username, credential))
  {
  }

  /** Reading one more element of `urls` extends the strings read so far, or throws. */
  lemma StringsStep(us: seq<Value>, j: nat, got: seq<string>)
    requires j < |us| && Strings(us[..j]) == Ok(got)
    ensures us[j].Str? ==> Strings(us[..j + 1]) == Ok(got + [CStr(us[j].s)])
    ensures !us[j].Str? ==> Strings(us[..j + 1]) == Err(NotAString)
  {
    assert us[..j + 1][..j] == us[..j];
  }

  /** One more URL adds one entry at the end of a server's expansion. */
  lemma ExpansionSnoc(urls: seq<string>, uri: string, username: string, credential: string)
    ensures Expansion(ServerEntry(urls + [uri], username, credential)) ==
      Expansion(ServerEntry(urls, username, credential)) + [IceServer(uri, username, credential)]
  {
  }

  /** The inner loop: one entry per element of `urls`, each with the server's credentials. */
  method FlattenUrls(us: seq<Value>, username: string, credential: string) returns (r: Result<seq<IceServer>, Fault>)
    ensures Strings(us).Err? ==> r == Err(Strings(us).error)
    ensures Strings(us).Ok? ==> r == Ok(Expansion(ServerEntry(Strings(us).value, username, credential)))
  {
    var out: seq<IceServer> := [];
    ghost var got: seq<string> := [];
    var j := 0;
    while j < |us|
      invariant 0 <= j <= |us|
      invariant Strings(us[..j]) == Ok(got)
      invariant out == Expansion(ServerEntry(got, username, credential))
    {
      var url := AsString(us[j]);
      StringsStep(us, j, got);
      if url.Err? {
        StringsPrefix(us, j + 1);
        return Err(url.error);
      }
      var uri := CStr(url.value);
      ExpansionSnoc(got, uri, username, credential);
      out := out + [IceServer(uri, username, credential)];
      got := got + [uri];
      j := j + 1;
    }
    assert us[..j] == us;
    return Ok(out);
  }

  /** The entries of one server object: its credentials, then the inner loop over its `urls`. */
  method FlattenServer(jserver: Value) returns (r: Result<seq<IceServer>, Fault>)
    ensures DecodeEntry(jserver).Err? ==> r == Err(DecodeEntry(jserver).error)
    ensures DecodeEntry(jserver).Ok? ==> r == Ok(Expansion(DecodeEntry(jserver).value))
  {
    var username := CStringAt(jserver, "username");
    if username.Err? {
      return Err(username.error);
    }
    var credential := CStringAt(jserver, "credential");
    if credential.Err? {
      return Err(credential.error);
    }
    var jurls := At(jserver, "urls");
    if jurls.Err? {
      return Err(jurls.error);
    }
    var urls := AsArray(jurls.value);
    if urls.Err? {
      return Err(urls.error);
    }
    DecodeEntryOfParts(jserver, username.value, credential.value, urls.value);
    r := FlattenUrls(urls.value, username.value, credential.value);
  }

  /**
    The flattening loop as the session runs it: for each server read
    `username` and `credential`, then push one entry per element of `urls`,
    each string kept up to its first NUL.
    Any accessor that throws ends the whole operation with that fault.
   */
  method FlattenIceServers(jconfig: Value) returns (r: Result<seq<IceServer>, Fault>)
    ensures r == IceServersOf(jconfig)
    ensures r.Ok? ==> DecodeConfig(jconfig).Ok? && |r.value| == TotalUrls(DecodeConfig(jconfig).value)
  {
    var jservers := At(jconfig, "iceServers");
    if jservers.Err? {
      return Err(jservers.error);
    }
    var servers := AsArray(jservers.value);
    if servers.Err? {
      return Err(servers.error);
    }
    var items := servers.value;
    var out: seq<IceServer> := [];
    ghost var done: seq<ServerEntry> := [];
    var i := 0;
    while i < |items|
      invariant 0 <= i <= |items|
      invariant DecodeEntries(items[..i]) == Ok(done)
      invariant out == Expand(done)
    {
      var entries := FlattenServer(items[i]);
      if entries.Err? {
        DecodeEntriesStep(items, i, done);
        DecodeEntriesPrefix(items, i + 1);
        return Err(entries.error);
      }
      var e := DecodeEntry(items[i]).value;
      DecodeEntriesStep(items, i, done);
      out := out + entries.value;
      done := done + [e];
      i := i + 1;
    }
    assert items[..i] == items;
    ExpandLength(done);
    return Ok(out);
  }
}

=== FILE: json.dfy ===
/**
  The parsed JSON values the signaling session inspects, and the accessors it
  uses on them. The accessors behave like boost::json's checked accessors:
  `at` on a missing key and `as_string` / `as_array` / `as_bool` on a value of
  another kind throw; here they return `Err` with the reason instead. Strings
  the session keeps are copied through their C-string pointer, which ends them
  at the first NUL character.
 */
module Json {
  import opened Wrappers

  datatype Value =
    | Null
    | Bool(b: bool)
    | Number(n: int)
    | Str(s: string)
    | Array(items: seq<Value>)
    | Object(fields: map<string, Value>)

  /** Why an accessor (or the parser) threw. */
  datatype Fault =
    | Unparseable
    | NotAnObject
    | MissingKey(key: string)
    | NotAString
    | NotAnArray
    | NotABool

  /** `v.at(key)`: the member `key` of the object `v`. */
  function At(v: Value, key: string): (r: Result<Value, Fault>)
    ensures r.Ok? <==> v.Object? && key in v.fields
    ensures r.Ok? ==> r.value == v.fields[key]
  {
    if !v.Object? then Err(NotAnObject)
    else if key !in v.fields then Err(MissingKey(key))
    else Ok(v.fields[key])
  }

  /** `v.as_string()`. */
  function AsString(v: Value): (r: Result<string, Fault>)
    ensures r.Ok? <==> v.Str?
    ensures r.Ok? ==> Str(r.value) == v
  {
    if v.Str? then Ok(v.s) else Err(NotAString)
  }

  /** `v.as_array()`. */
  function AsArray(v: Value): (r: Result<seq<Value>, Fault>)
    ensures r.Ok? <==> v.Array?
    ensures r.Ok? ==> Array(r.value) == v
  {
    if v.Array? then Ok(v.items) else Err(NotAnArray)
  }

  /** `v.at(key).as_string()`: the string member `key` of the object `v`. */
  function StringAt(v: Value, key: string): (r: Result<string, Fault>)
    ensures r.Ok? <==> v.Object? && key in v.fields && v.fields[key].Str?
    ensures r.Ok? ==> v.fields[key] == Str(r.value)
  {
    match At(v, key)
    case Err(f) => Err(f)
    case Ok(m) => AsString(m)
  }

  /**
    `std::string(s.c_str())`: the characters of `s` before its first NUL, or
    all of `s` when it has none (`CStrIsPrefixBeforeNul` characterizes it).
   */
  function CStr(s: string): (r: string)
    ensures |r| <= |s|
    decreases |s|
  {
    if |s| == 0 || s[0] == '\0' then "" else [s[0]] + CStr(s[1..])
  }

  /**
    `CStr(s)` is the longest prefix of `s` without a NUL: a prefix holding no
    NUL, which either is all of `s` or is followed in `s` by a NUL.
   */
  lemma {:induction false} CStrIsPrefixBeforeNul(s: string)
    ensures CStr(s) <= s && '\0' !in CStr(s)
    ensures |CStr(s)| < |s| ==> s[|CStr(s)|] == '\0'
    decreases |s|
  {
    if |s| > 0 && s[0] != '\0' {
      CStrIsPrefixBeforeNul(s[1..]);
      assert s == [s[0]] + s[1..];
    }
  }

  /** A string without a NUL is copied whole. */
  lemma CStrOfNulFree(s: string)
    requires '\0' !in s
    ensures CStr(s) == s
  {
    CStrIsPrefixBeforeNul(s);
  }

  /** A string followed by a NUL reads back as that string, whatever follows the NUL. */
  lemma CStrStopsAtNul(t: string, rest: string)
    requires '\0' !in t
    ensures CStr(t + ['\0'] + rest) == t
  {
    var s := t + ['\0'] + rest;
    CStrIsPrefixBeforeNul(s);
    assert s[|t|] == '\0';
  }

  /** `v.at(key).as_string().c_str()`: the string member `key` of `v`, up to its first NUL. */
  function CStringAt(v: Value, key: string): (r: Result<string, Fault>)
    ensures r.Ok? <==> v.Object? && key in v.fields && v.fields[key].Str?
    ensures r.Ok? ==> r.value == CStr(v.fields[key].s)
    ensures r.Err? ==> r == Err(StringAt(v, key).error)
  {
    match StringAt(v, key)
    case Err(f) => Err(f)
    case Ok(s) => Ok(CStr(s))
  }
}

=== FILE: messages.dfy ===
/**
  The messages a session writes to the signaling channel. All but a pong with
  stats are JSON objects serialized by the JSON library; a pong with stats is
  assembled as text around the stats report, which is embedded verbatim.
 */
module Outbound {
  import opened Wrappers
  import opened Json
  import SignalingConfig
  import ConnectMessage

  datatype Message =
    | Connect(config: SignalingConfig.Config, build: SignalingConfig.BuildInfo)
    | Answer(sdp: string)
    | Update(sdp: string)
    | Candidate(sdp: string)
    | Pong
    | StatsPong(report: string)

  /** The JSON object written for a message other than a pong with stats. */
  function ToJson(m: Message): (r: Value)
    requires !m.StatsPong?
    ensures r.Object? && "type" in r.fields && r.fields["type"].Str?
    ensures m.Answer? || m.Update? ==> r.fields.Keys == {"type", "sdp"} && r.fields["sdp"] == Str(m.sdp)
    ensures m.Candidate? ==> r.fields.Keys == {"type", "candidate"} && r.fields["candidate"] == Str(m.sdp)
    ensures m.Pong? ==> r.fields.Keys == {"type"}
  {
    match m
    case Connect(c, b) => ConnectMessage.Build(c, b)
    case Answer(sdp) => Object(map["type" := Str("answer"), "sdp" := Str(sdp)])
    case Update(sdp) => Object(map["type" := Str("update"), "sdp" := Str(sdp)])
    case Candidate(sdp) => Object(map["type" := Str("candidate"), "candidate" := Str(sdp)])
    case Pong => Object(map["type" := Str("pong")])
  }

  /**
    Recognizes an outbound JSON object by its `type` and required fields. A
    connect message is read by `ConnectMessage.Read` instead, since it does
    not carry the whole configuration.
   */
  function FromJson(v: Value): Option<Message> {
    match StringAt(v, "type")
    case Err(_) => None
    case Ok(t) =>
      if t == "answer" then
        match StringAt(v, "sdp")
        case Err(_) => None
        case Ok(sdp) => Some(Answer(sdp))
      else if t == "update" then
        match StringAt(v, "sdp")
        case Err(_) => None
        case Ok(sdp) => Some(Update(sdp))
      else if t == "candidate" then
        match StringAt(v, "candidate")
        case Err(_) => None
        case Ok(sdp) => Some(Candidate(sdp))
      else if t == "pong" && "stats" !in v.fields then Some(Pong)
      else None
  }

  /** Every outbound message serialized as a JSON object, other than connect, is recognized as itself. */
  lemma JsonRoundTrip(m: Message)
    requires !m.StatsPong? && !m.Connect?
    ensures FromJson(ToJson(m)) == Some(m)
  {
    var v := ToJson(m);
    match m
    case Answer(sdp) =>
      assert StringAt(v, "type") == Ok("answer");
      assert StringAt(v, "sdp") == Ok(sdp);
    case Update(sdp) =>
      assert StringAt(v, "type") == Ok("update");
      assert StringAt(v, "sdp") == Ok(sdp);
    case Candidate(sdp) =>
      assert StringAt(v, "type") == Ok("candidate");
      assert StringAt(v, "candidate") == Ok(sdp);
    case Pong =>
      assert StringAt(v, "type") == Ok("pong");
  }

  /** A candidate message carries the SDP fragment and nothing else: no media id, no line index. */
  lemma CandidateCarriesOnlySdp(sdp: string)
    ensures ToJson(Candidate(sdp)).fields.Keys == {"type", "candidate"}
    ensures ToJson(Candidate(sdp)).fields["candidate"] == Str(sdp)
  {
  }

  /** The text before the report in a pong with stats. */
  const StatsPongPrefix: string := "{\"type\":\"pong\",\"stats\":"

  /**
    A pong with the stats report spliced in as text: what the session writes
    for `StatsPong(report)`, the one message not serialized through `ToJson`.
   */
  function StatsPongText(report: string): (r: string)
    ensures |r| == |StatsPongPrefix| + |report| + 1
    ensures r[..|StatsPongPrefix|] == StatsPongPrefix
    ensures r[|StatsPongPrefix|..|r| - 1] == report
    ensures r[|r| - 1] == '}'
  {
    StatsPongPrefix + report + "}"
  }

  /** The report a pong text carries, if it is a pong with stats. */
  function StatsOfPong(text: string): Option<string> {
    if |text| > |StatsPongPrefix| && text[..|StatsPongPrefix|] == StatsPongPrefix && text[|text| - 1] == '}'
    then Some(text[|StatsPongPrefix|..|text| - 1])
    else None
  }

  /** The report comes back out of a pong with stats unchanged. */
  lemma StatsPongRoundTrip(report: string)
    ensures StatsOfPong(StatsPongText(report)) == Some(report)
  {
  }

  /**
    A bare pong is the object with only `type: pong`: it has no `stats`
    member, and it is not read as a pong carrying stats either.
   */
  lemma BarePongHasNoStats()
    ensures ToJson(Pong).fields.Keys == {"type"} && ToJson(Pong).fields["type"] == Str("pong")
    ensures FromJson(ToJson(Pong)) == Some(Pong)
  {
    JsonRoundTrip(Pong);
  }
}

=== FILE: session.dfy ===
/**
  The signaling session: one immutable state record and a step function that
  applies one event to it. Events are the host's calls (`Connect`, `Close`,
  `Release`), the transport's completions (handshake, read), the media
  session's callback completions (remote description set, answer created,
  stats gathered) and its notifications (ICE state change, ICE candidate).
  Every event is taken to run to completion before the next. The code does
  not guarantee this: a state change is posted to an executor other than the
  session's own, and a candidate is written from the media session's
  thread, so both can run alongside the session's handlers.
 */
module Session {
  import opened Wrappers
  import opened Json
  import opened SignalingConfig
  import IceServers
  import Outbound

  /** The ICE connection state reported by the media session. */
  datatype IceState = New | Checking | Connected | Completed | Failed | Disconnected | Closed | Max

  /** The signaling transport: none yet, a plain websocket, or a TLS one. */
  datatype Transport = NoTransport | Plain | Tls(insecure: bool)

  /** A media session, created with the flattened server list of an offer. */
  datatype Connection = Connection(servers: seq<IceServers.IceServer>)

  /** Which message an answer produced by the media session is sent back in. */
  datatype Reply = AnswerReply | UpdateReply

  /** A callback the session is waiting on. */
  datatype Pending =
    | SetOfferPending(reply: Reply, sdp: string)
    | CreateAnswerPending(reply: Reply)
    | GetStatsPending

  /**
    How a read completed: cancelled, failed, or with a text and what parsing
    it as JSON gives (`None` when it is not JSON).
   */
  datatype ReadOutcome = Aborted | ReadFailed | Received(text: string, doc: Option<Value>)

  datatype Event =
    | ConnectCalled
    | HandshakeDone(ok: bool)
    | ReadDone(outcome: ReadOutcome)
    | SetOfferDone(index: nat)
    | CreateAnswerDone(index: nat, sdp: string)
    | GetStatsDone(index: nat, report: string)
    | IceStateChanged(state: IceState)
    | IceCandidate(sdpMid: string, sdpMLineIndex: int, sdp: string)
    | CloseCalled
    | ReleaseCalled

  /**
    The session state. `handshakes` counts transport handshakes started and
    not yet completed, `openReads` the reads issued and not yet completed,
    `peersCreated` the media sessions created so far. `sent` is the log of
    messages written to the transport and `notified` the texts handed to the
    notification callback (present when `hasNotify`). `halted` records an
    exception that escaped a handler: nothing catches it, so nothing runs
    after it.
   */
  datatype Session = Session(
    config: Config,
    build: BuildInfo,
    hasNotify: bool,
    connected: bool,
    transport: Transport,
    handshakes: nat,
    connection: Option<Connection>,
    peersCreated: nat,
    rtcState: IceState,
    openReads: nat,
    pending: seq<Pending>,
    closeRequested: bool,
    sent: seq<Outbound.Message>,
    notified: seq<string>,
    halted: Option<Fault>)

  /** A freshly created session: nothing connected, nothing sent, ICE state new. */
  function Init(config: Config, build: BuildInfo, hasNotify: bool): (r: Session)
    ensures r.config == config && r.build == build && r.hasNotify == hasNotify
    ensures !r.connected && r.transport == NoTransport && r.connection.None? && r.rtcState == New
    ensures r.handshakes == 0 && r.openReads == 0 && r.pending == [] && r.sent == [] && r.notified == []
    ensures r.halted.None?
  {
    Session(config, build, hasNotify, false, NoTransport, 0, None, 0, New, 0, [], false, [], [], None)
  }

  /**
    `r` follows `s` by one event: each log keeps what it had and gains at most
    one entry, and the configuration is untouched.
   */
  predicate Follows(s: Session, r: Session) {
    && s.sent <= r.sent && |r.sent| <= |s.sent| + 1
    && s.notified <= r.notified && |r.notified| <= |s.notified| + 1
    && r.config == s.config && r.build == s.build && r.hasNotify == s.hasNotify
  }

  /**
    Handling a read leaves the transport, the handshakes, the connected flag
    and the ICE state alone; a media session it installs is counted; and it
    only adds callbacks after the pending ones.
   */
  predicate ReadKeeps(s: Session, r: Session) {
    && r.connected == s.connected && r.transport == s.transport
    && s.pending <= r.pending
    && r.handshakes == s.handshakes && r.rtcState == s.rtcState
    && r.peersCreated >= s.peersCreated
    && (r.connection != s.connection ==> r.connection.Some? && r.peersCreated > s.peersCreated)
  }

  /** The exception `f` escapes the current handler. */
  function Halt(s: Session, f: Fault): Session {
    s.(halted := Some(f))
  }

  /** `p` without its element `i`. */
  function RemoveAt<T>(p: seq<T>, i: nat): (r: seq<T>)
    requires i < |p|
    ensures |r| == |p| - 1
    ensures forall k :: 0 <= k < |r| ==> r[k] == (if k < i then p[k] else p[k + 1])
  {
    p[..i] + p[i + 1..]
  }

  /** The media session handle as exposed to the host: only while ICE is connected. */
  function RtcConnection(s: Session): (r: Option<Connection>)
    ensures r.Some? ==> s.rtcState == Connected && r == s.connection
    ensures s.rtcState == Connected ==> r == s.connection
    ensures s.rtcState != Connected ==> r == None
  {
    if s.rtcState == Connected then s.connection else None
  }

  // ----- Connect and the handshake -----

  datatype ConnectOutcome = ConnectOutcome(next: Session, ok: bool)

  /** The transport a configured URL scheme selects, if the scheme is supported. */
  function TransportFor(c: Config): (r: Option<Transport>)
    ensures r == Some(Plain) <==> c.scheme == Some("ws")
    ensures r == Some(Tls(c.insecure)) <==> c.scheme == Some("wss")
    ensures r.None? <==> c.scheme != Some("ws") && c.scheme != Some("wss")
  {
    match c.scheme
    case None => None
    case Some(scheme) =>
      if scheme == "ws" then Some(Plain)
      else if scheme == "wss" then Some(Tls(c.insecure))
      else None
  }

  /**
    `Connect()`: refused when already connected, when the URL does not parse
    or when its scheme is neither `ws` nor `wss`; otherwise a transport of the
    matching kind is created and its handshake started.
   */
  function Connect(s: Session): (r: ConnectOutcome)
    ensures r.ok <==> !s.connected && (s.config.scheme == Some("ws") || s.config.scheme == Some("wss"))
    ensures !r.ok ==> r.next == s
    ensures r.ok && s.config.scheme == Some("ws") ==>
      r.next == s.(transport := Plain, handshakes := s.handshakes + 1)
    ensures r.ok && s.config.scheme == Some("wss") ==>
      r.next == s.(transport := Tls(s.config.insecure), handshakes := s.handshakes + 1)
  {
    if s.connected then ConnectOutcome(s, false)
    else
      match TransportFor(s.config)
      case None => ConnectOutcome(s, false)
      case Some(t) => ConnectOutcome(s.(transport := t, handshakes := s.handshakes + 1), true)
  }

  /**
    `OnConnect`: a failed handshake changes nothing; a successful one marks
    the session connected, issues the first read and sends the connect message.
   */
  function OnConnect(s: Session, ok: bool): (r: Session)
    requires s.handshakes > 0
    ensures !ok ==> r == s.(handshakes := s.handshakes - 1)
    ensures ok ==> r.connected && r.openReads == s.openReads + 1
    ensures ok ==> r.sent == s.sent + [Outbound.Connect(s.config, s.build)]
    ensures ok ==> r.(connected := s.connected, openReads := s.openReads, sent := s.sent) == s.(handshakes := s.handshakes - 1)
  {
    var s0 := s.(handshakes := s.handshakes - 1);
    if !ok then s0
    else
      s0.(connected := true,
          openReads := s0.openReads + 1,
          sent := s0.sent + [Outbound.Connect(s.config, s.build)])
  }

  // ----- The read loop -----

  /** `at("type").as_string().c_str()` on an inbound message: the type ends at its first NUL. */
  function TypeOf(d: Value): (r: Result<string, Fault>)
    ensures r.Ok? <==> d.Object? && "type" in d.fields && d.fields["type"].Str?
    ensures r.Ok? ==> r.value == CStr(d.fields["type"].s)
  {
    CStringAt(d, "type")
  }

  /**
    The `stats` member of a ping: a literal true asks for stats, an absent or
    false one does not, and any other value throws.
   */
  function StatsRequested(d: Value): (r: Result<bool, Fault>)
    ensures r == Ok(true) <==> d.Object? && "stats" in d.fields && d.fields["stats"] == Bool(true)
    ensures d.Object? ==> (r == Ok(false) <==> "stats" !in d.fields || d.fields["stats"] == Bool(false))
    ensures d.Object? && "stats" in d.fields && !d.fields["stats"].Bool? ==> r == Err(NotABool)
    ensures !d.Object? ==> r == Err(NotAnObject)
  {
    if !d.Object? then Err(NotAnObject)
    else if "stats" !in d.fields then Ok(false)
    else if d.fields["stats"].Bool? then Ok(d.fields["stats"].b)
    else Err(NotABool)
  }

  /**
    The media session handle is dereferenced unchecked by `update` and by a
    ping that asks for stats; a read may complete with such a message only
    when the handle is present.
   */
  predicate DerefSafe(s: Session, o: ReadOutcome): (r: bool)
    ensures s.connection.Some? ==> r
    ensures !o.Received? || o.doc.None? ==> r
    ensures (r && o.Received? && o.doc.Some? && TypeOf(o.doc.value) == Ok("update") &&
             CStringAt(o.doc.value, "sdp").Ok?) ==> s.connection.Some?
  {
    o.Received? && o.doc.Some? ==>
      var d := o.doc.value;
      && (TypeOf(d) == Ok("update") && CStringAt(d, "sdp").Ok? ==> s.connection.Some?)
      && (TypeOf(d) == Ok("ping") && s.rtcState == Connected && StatsRequested(d) == Ok(true) ==>
            s.connection.Some?)
  }

  /**
    An `offer`: flatten the ICE servers of its `config`, create a media
    session with them, then ask it to apply the offered SDP (up to its first
    NUL). The media session exists before `sdp` is read, so a missing `sdp`
    leaves it in place.
   */
  function OnOffer(s: Session, d: Value): (r: Session)
    requires s.halted.None?
    ensures Follows(s, r) && ReadKeeps(s, r) && r.sent == s.sent && r.notified == s.notified
    ensures r.halted.None? ==> r.openReads == s.openReads + 1
    ensures r.halted.Some? ==> r.openReads == s.openReads
  {
    match At(d, "config")
    case Err(f) => Halt(s, f)
    case Ok(jconfig) =>
      match IceServers.IceServersOf(jconfig)
      case Err(f) => Halt(s, f)
      case Ok(servers) =>
        var s1 := s.(connection := Some(Connection(servers)), peersCreated := s.peersCreated + 1);
        match CStringAt(d, "sdp")
        case Err(f) => Halt(s1, f)
        case Ok(sdp) => s1.(pending := s1.pending + [SetOfferPending(AnswerReply, sdp)], openReads := s1.openReads + 1)
  }

  /**
    A `ping`: ignored until ICE is connected; then answered with a bare pong,
    or, when it asks for stats, by gathering stats first.
   */
  function OnPing(s: Session, d: Value): (r: Session)
    requires s.halted.None?
    requires s.rtcState == Connected && StatsRequested(d) == Ok(true) ==> s.connection.Some?
    ensures Follows(s, r) && ReadKeeps(s, r)
    ensures r.halted.None? ==> r.openReads == s.openReads + 1
    ensures r.halted.Some? ==> r.openReads == s.openReads
  {
    if s.rtcState != Connected then s.(openReads := s.openReads + 1)
    else
      match StatsRequested(d)
      case Err(f) => Halt(s, f)
      case Ok(stats) =>
        if stats then s.(pending := s.pending + [GetStatsPending], openReads := s.openReads + 1)
        else s.(sent := s.sent + [Outbound.Pong], openReads := s.openReads + 1)
  }

  /** Dispatch on the `type` of an inbound message; `s` has already consumed its read. */
  function Dispatch(s: Session, text: string, d: Value): (r: Session)
    requires s.halted.None?
    requires DerefSafe(s, Received(text, Some(d)))
    ensures Follows(s, r) && ReadKeeps(s, r)
    ensures r.halted.None? ==> r.openReads == s.openReads + 1
    ensures r.halted.Some? ==> r.openReads == s.openReads
  {
    match TypeOf(d)
    case Err(f) => Halt(s, f)
    case Ok(t) =>
      if t == "offer" then OnOffer(s, d)
      else if t == "update" then
        match CStringAt(d, "sdp")
        case Err(f) => Halt(s, f)
        case Ok(sdp) => s.(pending := s.pending + [SetOfferPending(UpdateReply, sdp)], openReads := s.openReads + 1)
      else if t == "notify" then
        s.(notified := if s.hasNotify then s.notified + [text] else s.notified, openReads := s.openReads + 1)
      else if t == "ping" then OnPing(s, d)
      else s.(openReads := s.openReads + 1)
  }

  /** `OnRead`: a cancelled or failed read ends the loop; a text is parsed and dispatched. */
  function OnRead(s: Session, o: ReadOutcome): (r: Session)
    requires s.halted.None? && s.openReads > 0 && DerefSafe(s, o)
    ensures Follows(s, r) && ReadKeeps(s, r)
  {
    var s0 := s.(openReads := s.openReads - 1);
    assert Follows(s, s0);
    match o
    case Aborted => s0
    case ReadFailed => s0
    case Received(text, doc) =>
      match doc
      case None => Halt(s0, Unparseable)
      case Some(d) => Dispatch(s0, text, d)
  }

  // ----- Events -----

  /**
    The events that can occur in state `s`: none once an exception escaped;
    a completion only for what was started; and none that would make the
    session dereference a null handle.
   */
  predicate Enabled(s: Session, e: Event): (r: bool)
    ensures s.halted.Some? ==> !r
    ensures e == ConnectCalled || e == ReleaseCalled ==> (r <==> s.halted.None?)
    ensures e.ReadDone? && r ==> s.openReads > 0
    ensures e.SetOfferDone? && r ==> s.connection.Some?
  {
    && s.halted.None?
    && match e
       case ConnectCalled => true
       case HandshakeDone(_) => s.handshakes > 0
       case ReadDone(o) => s.openReads > 0 && DerefSafe(s, o)
       case SetOfferDone(i) => i < |s.pending| && s.pending[i].SetOfferPending? && s.connection.Some?
       case CreateAnswerDone(i, _) => i < |s.pending| && s.pending[i].CreateAnswerPending?
       case GetStatsDone(i, _) => i < |s.pending| && s.pending[i].GetStatsPending?
       case IceStateChanged(_) => s.peersCreated > 0
       case IceCandidate(_, _, _) => s.peersCreated > 0
       case CloseCalled => s.transport != NoTransport
       case ReleaseCalled => true
  }

  /** Applies one event; the message and notification logs only ever grow, by at most one each. */
  function Step(s: Session, e: Event): (r: Session)
    requires Enabled(s, e)
    ensures Follows(s, r)
  {
    match e
    case ConnectCalled => Connect(s).next
    case HandshakeDone(ok) => OnConnect(s, ok)
    case ReadDone(o) => OnRead(s, o)
    case SetOfferDone(i) =>
      s.(pending := s.pending[i := CreateAnswerPending(s.pending[i].reply)])
    case CreateAnswerDone(i, sdp) =>
      var m := if s.pending[i].reply == AnswerReply then Outbound.Answer(sdp) else Outbound.Update(sdp);
      s.(pending := RemoveAt(s.pending, i), sent := s.sent + [m])
    case GetStatsDone(i, report) =>
      s.(pending := RemoveAt(s.pending, i), sent := s.sent + [Outbound.StatsPong(report)])
    case IceStateChanged(state) => s.(rtcState := state)
    case IceCandidate(_, _, sdp) => s.(sent := s.sent + [Outbound.Candidate(sdp)])
    case CloseCalled => s.(closeRequested := true)
    case ReleaseCalled => s.(connection := None)
  }

  /** Applies events in order; `None` when one of them cannot occur where it arrives. */
  function Run(s: Session, es: seq<Event>): Option<Session>
    decreases |es|
  {
    if |es| == 0 then Some(s)
    else if !Enabled(s, es[0]) then None
    else Run(Step(s, es[0]), es[1..])
  }
}

=== FILE: session_properties.dfy ===
/**
  Properties of the signaling session: the invariant every reachable state
  keeps, the behaviour of the read loop per message type, keepalive handling,
  the offer/answer and stats exchanges as event sequences, and the rule that
  the media session handle is exposed only while ICE is connected.
 */
module SessionProperties {
  import opened Wrappers
  import opened Json
  import opened SignalingConfig
  import IceServers
  import Outbound
  import opened Session

  /** `n` copies of `x`. */
  function Repeat<T>(x: T, n: nat): (r: seq<T>)
    ensures |r| == n && forall i :: 0 <= i < n ==> r[i] == x
  {
    if n == 0 then [] else [x] + Repeat(x, n - 1)
  }

  lemma RunCons(s: Session, e: Event, es: seq<Event>)
    requires Enabled(s, e)
    ensures Run(s, [e] + es) == Run(Step(s, e), es)
  {
    assert ([e] + es)[1..] == es;
  }

  // ----- The session invariant -----

  /** The connect message the session's configuration produces. */
  function ConnectOf(s: Session): Outbound.Message {
    Outbound.Connect(s.config, s.build)
  }

  /**
    What holds in every state reachable from `Init`: outstanding reads,
    callbacks and media sessions exist only after a successful handshake; a
    handshake implies a transport; the ICE state moves from `New` only once a
    media session exists; and the connect message is the first message sent.
   */
  predicate Valid(s: Session) {
    && (s.handshakes > 0 ==> s.transport != NoTransport)
    && (s.connected ==> s.transport != NoTransport)
    && (s.openReads > 0 ==> s.connected)
    && (|s.pending| > 0 ==> s.connected)
    && (s.peersCreated > 0 ==> s.connected)
    && (s.connection.Some? ==> s.peersCreated > 0)
    && (s.rtcState != New ==> s.peersCreated > 0)
    && (s.connected <==> |s.sent| > 0)
    && (|s.sent| > 0 ==> s.sent[0] == ConnectOf(s))
  }

  lemma InitValid(c: Config, b: BuildInfo, hasNotify: bool)
    ensures Valid(Init(c, b, hasNotify))
  {
  }

  lemma OnReadPreservesValid(s: Session, o: ReadOutcome)
    requires Valid(s) && Enabled(s, ReadDone(o))
    ensures Valid(OnRead(s, o))
  {
    var r := OnRead(s, o);
    assert |s.sent| > 0 && s.sent <= r.sent;
    assert r.sent[0] == s.sent[0];
  }

  lemma HandshakePreservesValid(s: Session, ok: bool)
    requires Valid(s) && Enabled(s, HandshakeDone(ok))
    ensures Valid(Step(s, HandshakeDone(ok)))
  {
    var r := OnConnect(s, ok);
    assert r.config == s.config && r.build == s.build;
    if ok && |s.sent| > 0 {
      assert r.sent[0] == s.sent[0];
    }
  }

  lemma CompletionPreservesValid(s: Session, e: Event)
    requires Valid(s) && Enabled(s, e)
    requires e.SetOfferDone? || e.CreateAnswerDone? || e.GetStatsDone?
    ensures Valid(Step(s, e))
  {
    var r := Step(s, e);
    assert s.connected && |s.sent| > 0;
    assert r.sent[0] == s.sent[0];
  }

  lemma NotificationPreservesValid(s: Session, e: Event)
    requires Valid(s) && Enabled(s, e)
    requires e.IceStateChanged? || e.IceCandidate?
    ensures Valid(Step(s, e))
  {
    var r := Step(s, e);
    assert s.connected && |s.sent| > 0;
    assert r.sent[0] == s.sent[0];
  }

  /** Every event that can occur keeps the invariant. */
  lemma StepPreservesValid(s: Session, e: Event)
    requires Valid(s) && Enabled(s, e)
    ensures Valid(Step(s, e))
  {
    match e
    case ConnectCalled =>
    case HandshakeDone(ok) => HandshakePreservesValid(s, ok);
    case ReadDone(o) => OnReadPreservesValid(s, o);
    case SetOfferDone(_) => CompletionPreservesValid(s, e);
    case CreateAnswerDone(_, _) => CompletionPreservesValid(s, e);
    case GetStatsDone(_, _) => CompletionPreservesValid(s, e);
    case IceStateChanged(_) => NotificationPreservesValid(s, e);
    case IceCandidate(_, _, _) => NotificationPreservesValid(s, e);
    case CloseCalled =>
    case ReleaseCalled =>
  }

  /** Every state reached by a run from a valid state is valid. */
  lemma {:induction false} RunPreservesValid(s: Session, es: seq<Event>, t: Session)
    requires Valid(s) && Run(s, es) == Some(t)
    ensures Valid(t)
    decreases |es|
  {
    if |es| > 0 {
      StepPreservesValid(s, es[0]);
      RunPreservesValid(Step(s, es[0]), es[1..], t);
    }
  }

  /** A run never changes the configuration. */
  lemma {:induction false} RunKeepsConfig(s: Session, es: seq<Event>, t: Session)
    requires Run(s, es) == Some(t)
    ensures t.config == s.config && t.build == s.build
    decreases |es|
  {
    if |es| > 0 {
      RunKeepsConfig(Step(s, es[0]), es[1..], t);
    }
  }

  /**
    In a reachable state the media session handle is exposed only after a
    successful handshake, with the connect message the first one sent.
   */
  lemma ExposedHandleFollowsHandshake(c: Config, b: BuildInfo, hasNotify: bool, es: seq<Event>, t: Session)
    requires Run(Init(c, b, hasNotify), es) == Some(t)
    requires RtcConnection(t).Some?
    ensures t.rtcState == Connected && t.connected && t.peersCreated > 0
    ensures |t.sent| > 0 && t.sent[0] == Outbound.Connect(c, b)
  {
    InitValid(c, b, hasNotify);
    RunPreservesValid(Init(c, b, hasNotify), es, t);
    RunKeepsConfig(Init(c, b, hasNotify), es, t);
  }

  // ----- The ICE connection state -----

  /** Only a state-change event changes the ICE state, and it changes nothing else. */
  lemma StepKeepsIceState(s: Session, e: Event)
    requires Enabled(s, e) && !e.IceStateChanged?
    ensures Step(s, e).rtcState == s.rtcState
  {
    match e
    case ReadDone(o) =>
      var s0 := s.(openReads := s.openReads - 1);
      if o.Received? && o.doc.Some? {
        var d := o.doc.value;
        assert OnOffer(s0, d).rtcState == s.rtcState;
        if TypeOf(d) == Ok("ping") && s.rtcState == Connected {
          assert OnPing(s0, d).rtcState == s.rtcState;
        }
      }
    case _ =>
  }

  /** A state-change event stores the new state and has no other effect. */
  lemma IceStateChangeOnlySetsState(s: Session, state: IceState)
    requires Enabled(s, IceStateChanged(state))
    ensures Step(s, IceStateChanged(state)) == s.(rtcState := state)
    ensures RtcConnection(Step(s, IceStateChanged(state))) == (if state == Connected then s.connection else None)
  {
  }

  /** Whatever ICE state a run ends in other than its starting one was reported by an event of that run. */
  lemma {:induction false} IceStateComesFromEvent(s: Session, es: seq<Event>, t: Session)
    requires Run(s, es) == Some(t) && t.rtcState != s.rtcState
    ensures IceStateChanged(t.rtcState) in es
    decreases |es|
  {
    var s1 := Step(s, es[0]);
    if !es[0].IceStateChanged? {
      StepKeepsIceState(s, es[0]);
    }
    if s1.rtcState == t.rtcState && es[0].IceStateChanged? {
      assert es[0] == IceStateChanged(t.rtcState);
    } else {
      IceStateComesFromEvent(s1, es[1..], t);
      assert es == [es[0]] + es[1..];
    }
  }

  /** After `Release` the handle is gone, so it is not exposed whatever the ICE state. */
  lemma ReleaseHidesConnection(s: Session)
    requires Enabled(s, ReleaseCalled)
    ensures Step(s, ReleaseCalled) == s.(connection := None)
    ensures RtcConnection(Step(s, ReleaseCalled)) == None
  {
  }

  // ----- Connecting -----

  /**
    The guard against connecting twice reads `connected`, which only a
    completed handshake sets: two `Connect` calls before the first handshake
    completes both start one, and both handshakes send a connect message and
    start a read loop.
   */
  lemma TwoConnectsBeforeHandshakeBothProceed(c: Config, b: BuildInfo, hasNotify: bool)
    requires c.scheme == Some("ws")
    ensures Connect(Init(c, b, hasNotify)).ok
    ensures Connect(Connect(Init(c, b, hasNotify)).next).ok
    ensures var t := Run(Init(c, b, hasNotify), [ConnectCalled, ConnectCalled, HandshakeDone(true), HandshakeDone(true)]);
      && t.Some?
      && t.value.openReads == 2
      && t.value.sent == [Outbound.Connect(c, b), Outbound.Connect(c, b)]
  {
    var s0 := Init(c, b, hasNotify);
    var s1 := Step(s0, ConnectCalled);
    var s2 := Step(s1, ConnectCalled);
    var s3 := Step(s2, HandshakeDone(true));
    var s4 := Step(s3, HandshakeDone(true));
    RunCons(s3, HandshakeDone(true), []);
    RunCons(s2, HandshakeDone(true), [HandshakeDone(true)]);
    RunCons(s1, ConnectCalled, [HandshakeDone(true), HandshakeDone(true)]);
    RunCons(s0, ConnectCalled, [ConnectCalled, HandshakeDone(true), HandshakeDone(true)]);
  }

  /** Once a handshake has succeeded, `Connect` is refused and changes nothing. */
  lemma ConnectRefusedAfterHandshake(s: Session)
    requires Enabled(s, HandshakeDone(true))
    ensures !Connect(Step(s, HandshakeDone(true))).ok
    ensures Connect(Step(s, HandshakeDone(true))).next == Step(s, HandshakeDone(true))
  {
  }

  // ----- The read loop -----

  /** A cancelled or failed read issues no new read and sends nothing. */
  lemma FailedReadEndsLoop(s: Session, o: ReadOutcome)
    requires Enabled(s, ReadDone(o)) && (o.Aborted? || o.ReadFailed?)
    ensures Step(s, ReadDone(o)) == s.(openReads := s.openReads - 1)
  {
  }

  /**
    A message that is handled issues exactly one new read; one whose handling
    throws issues none, and the session stops.
   */
  lemma HandledMessageRereads(s: Session, text: string, doc: Option<Value>)
    requires Enabled(s, ReadDone(Received(text, doc)))
    ensures var r := Step(s, ReadDone(Received(text, doc)));
      && (r.halted.None? ==> r.openReads == s.openReads)
      && (r.halted.Some? ==> r.openReads == s.openReads - 1)
  {
  }

  /** Text that is not JSON, or a message without a string `type`, throws. */
  lemma UntypedMessageHalts(s: Session, text: string, doc: Option<Value>)
    requires Enabled(s, ReadDone(Received(text, doc)))
    requires doc.None? || TypeOf(doc.value).Err?
    ensures Step(s, ReadDone(Received(text, doc))).halted.Some?
    ensures Step(s, ReadDone(Received(text, doc))) ==
      s.(openReads := s.openReads - 1,
         halted := Some(if doc.None? then Unparseable else TypeOf(doc.value).error))
  {
  }

  /** A message of a type the session does not know is read past and changes nothing. */
  lemma UnknownTypeIgnored(s: Session, text: string, d: Value, t: string)
    requires Enabled(s, ReadDone(Received(text, Some(d))))
    requires TypeOf(d) == Ok(t) && t !in {"offer", "update", "notify", "ping"}
    ensures Step(s, ReadDone(Received(text, Some(d)))) == s
  {
  }

  /** A `notify` hands its raw text, unchanged, to the callback and sends nothing. */
  lemma NotifyForwardsText(s: Session, text: string, d: Value)
    requires Enabled(s, ReadDone(Received(text, Some(d))))
    requires TypeOf(d) == Ok("notify")
    ensures var r := Step(s, ReadDone(Received(text, Some(d))));
      && r.sent == s.sent
      && r == s.(notified := if s.hasNotify then s.notified + [text] else s.notified)
  {
  }

  /**
    The type is compared only up to its first NUL: a `type` of `notify`
    followed by a NUL and anything else is handled as a `notify`.
   */
  lemma NulEndsType(s: Session, text: string, d: Value, rest: string)
    requires Enabled(s, ReadDone(Received(text, Some(d))))
    requires d.Object? && "type" in d.fields && d.fields["type"] == Str("notify" + ['\0'] + rest)
    ensures TypeOf(d) == Ok("notify")
    ensures Step(s, ReadDone(Received(text, Some(d)))) ==
      s.(notified := if s.hasNotify then s.notified + [text] else s.notified)
  {
    CStrStopsAtNul("notify", rest);
  }

  // ----- Keepalive -----

  /** Before ICE is connected a ping is dropped: no reply, one new read. */
  lemma PingBeforeConnectedIgnored(s: Session, text: string, d: Value)
    requires Enabled(s, ReadDone(Received(text, Some(d))))
    requires TypeOf(d) == Ok("ping") && s.rtcState != Connected
    ensures Step(s, ReadDone(Received(text, Some(d)))) == s
  {
  }

  /** Once connected, a ping whose `stats` is absent or false is answered at once with a bare pong. */
  lemma PingAnsweredWithPong(s: Session, text: string, d: Value)
    requires Enabled(s, ReadDone(Received(text, Some(d))))
    requires TypeOf(d) == Ok("ping") && s.rtcState == Connected && StatsRequested(d) == Ok(false)
    ensures Step(s, ReadDone(Received(text, Some(d)))) == s.(sent := s.sent + [Outbound.Pong])
  {
  }

  /** Once connected, a ping whose `stats` is not a boolean throws. */
  lemma PingWithBadStatsHalts(s: Session, text: string, d: Value)
    requires Enabled(s, ReadDone(Received(text, Some(d))))
    requires TypeOf(d) == Ok("ping") && s.rtcState == Connected
    requires "stats" in d.fields && !d.fields["stats"].Bool?
    ensures Step(s, ReadDone(Received(text, Some(d)))) == s.(openReads := s.openReads - 1, halted := Some(NotABool))
  {
  }

  /**
    Once connected, a ping with `stats: true` sends nothing at first; when
    the stats arrive, exactly one pong embedding the report is sent.
   */
  lemma StatsPingAnsweredAfterStats(s: Session, text: string, d: Value, report: string)
    requires Enabled(s, ReadDone(Received(text, Some(d))))
    requires TypeOf(d) == Ok("ping") && s.rtcState == Connected && StatsRequested(d) == Ok(true)
    ensures Step(s, ReadDone(Received(text, Some(d)))) == s.(pending := s.pending + [GetStatsPending])
    ensures Run(s, [ReadDone(Received(text, Some(d))), GetStatsDone(|s.pending|, report)]) ==
      Some(s.(sent := s.sent + [Outbound.StatsPong(report)]))
  {
    var e0 := ReadDone(Received(text, Some(d)));
    var s1 := Step(s, e0);
    var e1 := GetStatsDone(|s.pending|, report);
    assert RemoveAt(s1.pending, |s.pending|) == s.pending;
    RunCons(s1, e1, []);
    RunCons(s, e0, [e1]);
  }

  /** `n` pings without stats while connected are answered by exactly `n` bare pongs, in order. */
  lemma {:induction false} PingsGetBarePongs(s: Session, text: string, d: Value, n: nat)
    requires s.halted.None? && s.openReads > 0 && s.rtcState == Connected
    requires TypeOf(d) == Ok("ping") && StatsRequested(d) == Ok(false)
    ensures Run(s, Repeat(ReadDone(Received(text, Some(d))), n)) ==
      Some(s.(sent := s.sent + Repeat(Outbound.Pong, n)))
    decreases n
  {
    var e := ReadDone(Received(text, Some(d)));
    if n == 0 {
      assert s.sent + [] == s.sent;
    } else {
      var s1 := Step(s, e);
      PingAnsweredWithPong(s, text, d);
      RunCons(s, e, Repeat(e, n - 1));
      PingsGetBarePongs(s1, text, d, n - 1);
      assert s.sent + [Outbound.Pong] + Repeat(Outbound.Pong, n - 1) == s.sent + Repeat(Outbound.Pong, n);
    }
  }

  // ----- Negotiation -----

  /** The message that carries an answer produced for `reply`. */
  function ReplyMessage(reply: Reply, answer: string): Outbound.Message {
    if reply == AnswerReply then Outbound.Answer(answer) else Outbound.Update(answer)
  }

  /**
    Once a remote description is pending, its completion and the answer's
    completion send exactly one reply carrying the produced SDP, and leave the
    pending callbacks as they were before.
   */
  lemma NegotiationCompletes(s: Session, reply: Reply, sdp: string, answer: string)
    requires s.halted.None? && s.connection.Some?
    ensures var k := |s.pending|;
      Run(s.(pending := s.pending + [SetOfferPending(reply, sdp)]), [SetOfferDone(k), CreateAnswerDone(k, answer)]) ==
      Some(s.(sent := s.sent + [ReplyMessage(reply, answer)]))
  {
    var k := |s.pending|;
    var e1 := SetOfferDone(k);
    var e2 := CreateAnswerDone(k, answer);
    var s1 := s.(pending := s.pending + [SetOfferPending(reply, sdp)]);
    var s2 := s.(pending := s.pending + [CreateAnswerPending(reply)]);
    assert Step(s1, e1) == s2;
    assert RemoveAt(s2.pending, k) == s.pending;
    assert Step(s2, e2) == s.(sent := s.sent + [ReplyMessage(reply, answer)]);
    RunCons(s2, e2, []);
    RunCons(s1, e1, [e2]);
  }

  /**
    A remote description pending at any index, in any state, completes the
    same way: its two completions send exactly one reply carrying the
    produced SDP and take its callback out of the pending list.
   */
  lemma NegotiationCompletesAt(s: Session, i: nat, answer: string)
    requires s.halted.None? && s.connection.Some?
    requires i < |s.pending| && s.pending[i].SetOfferPending?
    ensures Run(s, [SetOfferDone(i), CreateAnswerDone(i, answer)]) ==
      Some(s.(pending := RemoveAt(s.pending, i), sent := s.sent + [ReplyMessage(s.pending[i].reply, answer)]))
  {
    var s1 := Step(s, SetOfferDone(i));
    assert RemoveAt(s1.pending, i) == RemoveAt(s.pending, i);
    RunCons(s1, CreateAnswerDone(i, answer), []);
    RunCons(s, SetOfferDone(i), [CreateAnswerDone(i, answer)]);
  }

  /** Whether `e` is the completion of the current stage of pending callback `i`. */
  predicate Completes(e: Event, i: nat) {
    match e
    case SetOfferDone(j) => j == i
    case CreateAnswerDone(j, _) => j == i
    case GetStatsDone(j, _) => j == i
    case _ => false
  }

  /** Where pending callback `i` sits after `e`: one place lower when an earlier callback finished. */
  function ShiftedIndex(e: Event, i: nat): nat {
    match e
    case CreateAnswerDone(j, _) => if j < i then i - 1 else i
    case GetStatsDone(j, _) => if j < i then i - 1 else i
    case _ => i
  }

  /**
    An event that does not complete pending callback `i` leaves that
    callback pending, unchanged, at its shifted index.
   */
  lemma PendingSurvivesStep(s: Session, e: Event, i: nat)
    requires Enabled(s, e) && i < |s.pending| && !Completes(e, i)
    ensures var r := Step(s, e);
      ShiftedIndex(e, i) < |r.pending| && r.pending[ShiftedIndex(e, i)] == s.pending[i]
  {
  }

  /**
    A negotiation overtaken by any other event between its two completions
    (a ping, a notification, another callback's completion) still sends
    exactly one reply with the produced SDP, after whatever that event sent.
   */
  lemma OvertakenNegotiationCompletes(s: Session, i: nat, e: Event, answer: string)
    requires s.halted.None? && s.connection.Some?
    requires i < |s.pending| && s.pending[i].SetOfferPending?
    requires Enabled(Step(s, SetOfferDone(i)), e) && !Completes(e, i)
    requires Step(Step(s, SetOfferDone(i)), e).halted.None?
    ensures var s2 := Step(Step(s, SetOfferDone(i)), e);
      var j := ShiftedIndex(e, i);
      j < |s2.pending| &&
      Run(s, [SetOfferDone(i), e, CreateAnswerDone(j, answer)]) ==
      Some(s2.(pending := RemoveAt(s2.pending, j), sent := s2.sent + [ReplyMessage(s.pending[i].reply, answer)]))
  {
    var s1 := Step(s, SetOfferDone(i));
    var s2 := Step(s1, e);
    var j := ShiftedIndex(e, i);
    PendingSurvivesStep(s1, e, i);
    assert s2.pending[j] == CreateAnswerPending(s.pending[i].reply);
    RunCons(s2, CreateAnswerDone(j, answer), []);
    RunCons(s1, e, [CreateAnswerDone(j, answer)]);
    RunCons(s, SetOfferDone(i), [e, CreateAnswerDone(j, answer)]);
  }

  /** An inbound offer, in its wire shape, with SDP `sdp` and ICE servers `es`. */
  function OfferDoc(sdp: string, es: seq<IceServers.ServerEntry>): Value {
    Object(map["type" := Str("offer"), "sdp" := Str(sdp), "config" := IceServers.EncodeConfig(es)])
  }

  /**
    An offer in its wire shape has type `offer`, a `config` that
    flattens to its servers' URLs, and an SDP; every string ends at its first NUL.
   */
  lemma CanonicalOffer(sdp: string, es: seq<IceServers.ServerEntry>)
    ensures TypeOf(OfferDoc(sdp, es)) == Ok("offer")
    ensures At(OfferDoc(sdp, es), "config") == Ok(IceServers.EncodeConfig(es))
    ensures IceServers.IceServersOf(IceServers.EncodeConfig(es)) == Ok(IceServers.Expand(IceServers.AllAsRead(es)))
    ensures CStringAt(OfferDoc(sdp, es), "sdp") == Ok(CStr(sdp))
  {
    var d := OfferDoc(sdp, es);
    assert d.fields["type"] == Str("offer") && d.fields["sdp"] == Str(sdp);
    CStrOfNulFree("offer");
    IceServers.FlattenEncoded(es);
  }

  /**
    An offer whose `config` flattens to `servers` creates a media session with
    exactly those servers and asks it to apply the offered SDP; nothing is
    sent yet. Keys other than `type`, `config` and `sdp` are ignored.
   */
  lemma OfferCreatesPeer(s: Session, text: string, d: Value, servers: seq<IceServers.IceServer>, sdp: string)
    requires s.halted.None? && s.openReads > 0
    requires TypeOf(d) == Ok("offer") && "config" in d.fields
    requires IceServers.IceServersOf(d.fields["config"]) == Ok(servers)
    requires CStringAt(d, "sdp") == Ok(sdp)
    ensures Enabled(s, ReadDone(Received(text, Some(d))))
    ensures Step(s, ReadDone(Received(text, Some(d)))) ==
      s.(connection := Some(Connection(servers)),
         peersCreated := s.peersCreated + 1,
         pending := s.pending + [SetOfferPending(AnswerReply, sdp)])
  {
    var s0 := s.(openReads := s.openReads - 1);
    assert OnOffer(s0, d) == s.(connection := Some(Connection(servers)),
                                peersCreated := s.peersCreated + 1,
                                pending := s.pending + [SetOfferPending(AnswerReply, sdp)]);
    assert Dispatch(s0, text, d) == OnOffer(s0, d);
  }

  /**
    An offer without a string `sdp` throws after the media session was
    created: the new media session stays in place and no read is issued.
   */
  lemma OfferWithoutSdpKeepsPeer(s: Session, text: string, d: Value, servers: seq<IceServers.IceServer>)
    requires s.halted.None? && s.openReads > 0
    requires TypeOf(d) == Ok("offer") && "config" in d.fields
    requires IceServers.IceServersOf(d.fields["config"]) == Ok(servers)
    requires CStringAt(d, "sdp").Err?
    ensures Enabled(s, ReadDone(Received(text, Some(d))))
    ensures Step(s, ReadDone(Received(text, Some(d)))) ==
      s.(openReads := s.openReads - 1,
         connection := Some(Connection(servers)),
         peersCreated := s.peersCreated + 1,
         halted := Some(CStringAt(d, "sdp").error))
  {
    var s0 := s.(openReads := s.openReads - 1);
    assert Dispatch(s0, text, d) == OnOffer(s0, d);
  }

  /** An offer whose `config` does not flatten throws before any media session is created. */
  lemma OfferWithBadConfigHalts(s: Session, text: string, d: Value)
    requires s.halted.None? && s.openReads > 0
    requires TypeOf(d) == Ok("offer") && "config" in d.fields
    requires IceServers.IceServersOf(d.fields["config"]).Err?
    ensures Enabled(s, ReadDone(Received(text, Some(d))))
    ensures Step(s, ReadDone(Received(text, Some(d)))) ==
      s.(openReads := s.openReads - 1, halted := Some(IceServers.IceServersOf(d.fields["config"]).error))
  {
    var s0 := s.(openReads := s.openReads - 1);
    assert Dispatch(s0, text, d) == OnOffer(s0, d);
  }

  /**
    Offer, remote description set, answer created: the media session holds the
    offer's servers and exactly one `answer` carrying the created SDP is sent.
   */
  lemma OfferIsAnswered(s: Session, text: string, d: Value, servers: seq<IceServers.IceServer>, answer: string)
    requires s.halted.None? && s.openReads > 0
    requires TypeOf(d) == Ok("offer") && "config" in d.fields
    requires IceServers.IceServersOf(d.fields["config"]) == Ok(servers)
    requires CStringAt(d, "sdp").Ok?
    ensures var k := |s.pending|;
      Run(s, [ReadDone(Received(text, Some(d))), SetOfferDone(k), CreateAnswerDone(k, answer)]) ==
      Some(s.(connection := Some(Connection(servers)),
              peersCreated := s.peersCreated + 1,
              sent := s.sent + [Outbound.Answer(answer)]))
  {
    var k := |s.pending|;
    var sdp := CStringAt(d, "sdp").value;
    var e0 := ReadDone(Received(text, Some(d)));
    var t := s.(connection := Some(Connection(servers)), peersCreated := s.peersCreated + 1);
    OfferCreatesPeer(s, text, d, servers, sdp);
    assert Step(s, e0) == t.(pending := t.pending + [SetOfferPending(AnswerReply, sdp)]);
    NegotiationCompletes(t, AnswerReply, sdp, answer);
    RunCons(s, e0, [SetOfferDone(k), CreateAnswerDone(k, answer)]);
  }

  /** An update asks the existing media session to apply its SDP; nothing is sent yet. */
  lemma UpdateStartsRenegotiation(s: Session, text: string, d: Value, sdp: string)
    requires s.halted.None? && s.openReads > 0 && s.connection.Some?
    requires TypeOf(d) == Ok("update") && CStringAt(d, "sdp") == Ok(sdp)
    ensures Enabled(s, ReadDone(Received(text, Some(d))))
    ensures Step(s, ReadDone(Received(text, Some(d)))) ==
      s.(pending := s.pending + [SetOfferPending(UpdateReply, sdp)])
  {
    var s0 := s.(openReads := s.openReads - 1);
    assert Dispatch(s0, text, d) == s.(pending := s.pending + [SetOfferPending(UpdateReply, sdp)]);
  }

  /**
    An update renegotiates on the existing media session: exactly one `update`
    carrying the created SDP is sent back, and the session is otherwise unchanged.
   */
  lemma UpdateIsAnswered(s: Session, text: string, d: Value, answer: string)
    requires s.halted.None? && s.openReads > 0 && s.connection.Some?
    requires TypeOf(d) == Ok("update") && CStringAt(d, "sdp").Ok?
    ensures var k := |s.pending|;
      Run(s, [ReadDone(Received(text, Some(d))), SetOfferDone(k), CreateAnswerDone(k, answer)]) ==
      Some(s.(sent := s.sent + [Outbound.Update(answer)]))
  {
    var k := |s.pending|;
    var sdp := CStringAt(d, "sdp").value;
    var e0 := ReadDone(Received(text, Some(d)));
    UpdateStartsRenegotiation(s, text, d, sdp);
    NegotiationCompletes(s, UpdateReply, sdp, answer);
    RunCons(s, e0, [SetOfferDone(k), CreateAnswerDone(k, answer)]);
  }

  // ----- Candidates -----

  /** A candidate is sent at once, carrying only its SDP fragment: media id and line index are dropped. */
  lemma CandidateSendsOnlySdp(s: Session, mid1: string, index1: int, mid2: string, index2: int, sdp: string)
    requires Enabled(s, IceCandidate(mid1, index1, sdp))
    ensures Step(s, IceCandidate(mid1, index1, sdp)) == Step(s, IceCandidate(mid2, index2, sdp))
    ensures Step(s, IceCandidate(mid1, index1, sdp)) == s.(sent := s.sent + [Outbound.Candidate(sdp)])
  {
  }
}

=== FILE: wrappers.dfy ===
/** Option and Result, the failure-carrying datatypes used throughout the model. */
module Wrappers {

  /** A value that may be absent (a null pointer, an unset JSON key). */
  datatype Option<+T> = None | Some(value: T)

  /** The outcome of an operation that can throw: its value, or what was thrown. */
  datatype Result<+T, +E> = Ok(value: T) | Err(error: E)
}
